=== FILE: README.md ===
# Bitwarden export matcher — a Dafny model

`bw.py` pairs the items of a source Bitwarden vault export with the items of
a destination export. The destination system gives items new ids, so ids
cannot be used for pairing. Items are compared by content instead. This
project models that engine and proves what it guarantees.

- **Canonicaliser** (`get_clean_item`, module `Canon`). It drops eleven
  identity and volatile keys. It then sorts three sub-lists by keys (tuples for `uris` and `fields`, a
  plain value for `fido2Credentials`): `login.uris`, `login.fido2Credentials` and the top-level `fields`.
- **Digest** (`get_item_hash`, module `Digest`). bw.py serialises the
  canonical form with `sort_keys=True` and takes its SHA-256. The model uses
  the key-sorted canonical value itself as the digest. This assumes that
  serialisation and SHA-256 are injective.
- **Matcher** (`action_match`, module `Matcher`):
  - It accepts an export that is a list, or a dict whose `items` is a list.
  - It indexes the destination items that have an `id` in two ways: by
    digest into first-in-first-out id buckets, and by truthy `name`.
  - It walks the source items in order. An exact digest hit takes the first
    id of its bucket.
  - On a miss, it pairs by name only when exactly one same-named
    destination is still unclaimed.
  - Unmatched items are counted. Only the first three get a detailed
    diagnostic.
- **Key order** (module `KeyOrder`). Key order inside any nested dict
  does not reach the digest, under either policy, as long as the fields the
  list sort keys read are plain values.
- **Loops** (module `MatchLoop`). The three loops of `action_match` are
  written as methods and proved to compute the functional model.

The matcher is defined as `Matcher.MatchBy`, which takes the digest function
as a parameter. Every law in `MatchLaws` therefore holds for any digest.
`Matcher.Match(policy, …)` is `MatchBy` with the item digest. `Canon.Policy`
chooses how sort-key ties are broken:

- `AsWritten` is bw.py: a stable sort, so tied entries keep their input
  order.
- `ContentTiebreak` breaks ties by the entries' normal forms (every dict's
  keys sorted, as the digest sees them), then by the entries as written.

See "## Findings" for why the choice matters.

Python values are modelled by `JsonValue.Json`. A dict is a sequence of
members in insertion order. Python's comparison of sort keys is
`JsonOrder.Cmp`, a total order on values. It agrees with Python on
strings, integers and lists of them, and departs from it on mixed kinds and
dicts (see "## Left out"). Python's stable `sorted` is
`StableSort.SortBy`. The value `json.dumps(..., sort_keys=True)` writes out
is `JsonNormal.Normalize`.

## Model

| member | source | states |
|---|---|---|
| Canon.CleanKeys | bw.py:74-89 | The canonical form holds exactly the item's keys minus the eleven removed ones; none of those is left; every other key except `login` and `fields` keeps its value; a dict stays a dict with distinct keys; missing keys are no error |
| Canon.CleanIgnoresRemovedKeys | bw.py:74-89 | Setting, adding or dropping a removed key leaves the canonical form unchanged |
| Canon.CleanLoginEntry | bw.py:92-107 | `login` is replaced by its cleaned dict exactly when it is a non-empty dict; otherwise it is left as it was |
| Canon.CleanLoginLists | bw.py:93-106 | In the cleaned `login`, `uris` and `fido2Credentials` are replaced by their sorted forms exactly when they are non-empty lists; every other login key is untouched |
| Canon.CleanFields | bw.py:109-118 | `fields` is replaced by its sorted form exactly when it is a non-empty list, and is otherwise left alone |
| Canon.SortListSpec | bw.py:97-118 | A sorted sub-list is a permutation of the input, ascending by the bw.py sort key, and entries with equal keys keep their input order |
| Canon.SortListPermutation | bw.py:97-118 | Two permutations of a list sort to the same list, under `ContentTiebreak` always and under bw.py's key when no two different entries share a key |
| Canon.CleanIdempotent | bw.py:70-120 | Canonicalising a canonical form changes nothing |
| Canon.CleanLoginIdempotent | bw.py:92-107 | Cleaning a cleaned `login` dict changes nothing |
| Canon.CleanUrisPermutation | bw.py:93-99 | Replacing `login.uris` by a permutation of it leaves the canonical form unchanged, under the same condition as `SortListPermutation` |
| Canon.CleanFido2Permutation | bw.py:101-106 | The same for `login.fido2Credentials` |
| Canon.CleanFieldsPermutation | bw.py:109-118 | The same for `fields` |
| StableSort.SortPermutation | bw.py:97-99 | `sorted` returns a permutation of its input |
| StableSort.SortSorted | bw.py:97-99 | `sorted` returns its input in ascending key order |
| StableSort.SortStable | bw.py:97-99 | The entries with any one key appear in the output in their input order |
| StableSort.SortIdempotent | bw.py:97-99 | Sorting a sorted list changes nothing |
| StableSort.SortedUnique | bw.py:97-99 | Two sorted permutations of one list are equal when equal keys imply equal entries |
| JsonOrder.CmpEqual | bw.py:99 | Key comparison returns zero exactly for equal keys |
| JsonOrder.CmpTrans | bw.py:99 | Key comparison is transitive, so the sorts are well defined |
| Digest.NormalizeKeyOrder | bw.py:126 | With `sort_keys=True`, two key orders of one dict serialise alike |
| Digest.ItemDigestKeyOrder | bw.py:123-129 | Reordering an item's keys does not change its digest |
| JsonNormal.NormalizeTwice | bw.py:126-127 | Serialising with sorted keys is idempotent: a normal form is its own normal form |
| JsonNormal.FieldNormalize | bw.py:126-127 | Reading a field of the normal form gives the normal form of the field, even with duplicate keys |
| KeyOrder.ListKeyNormalize | bw.py:99-117 | When the fields a sort key reads are plain values, the entry's normal form has the same bw.py sort key |
| KeyOrder.SortListNormalize | bw.py:97-118 | Under either policy, a sub-list of such entries sorts, up to normal form, the same whether or not its entries were normalised first |
| KeyOrder.CleanLoginNormalize | bw.py:92-107 | For a `login` that satisfies `LoginReady`, replacing the `login` dict by its normal form does not change the normal form of the cleaned `login` |
| KeyOrder.ItemDigestNormalizeValues | bw.py:70-129 | For items that satisfy `ItemReady`, replacing every value by its normal form leaves the digest unchanged |
| KeyOrder.ItemDigestDeepKeyOrder | bw.py:70-129 | Two items whose kept keys and values agree up to key order in every dict, at any depth, get the same digest under either policy |
| Digest.ItemDigestAfterLoginRewrite | bw.py:92-107 | Hashing an item again, after its `login` lists were sorted in place through the shallow copy, gives the digest it had before |
| Matcher.ItemsOf | bw.py:143-155 | The item list is found exactly when the export is a list, or a dict whose `items` is a list; a dict without `items` is an error |
| Matcher.Match | bw.py:143-155 | A run reaches an outcome exactly when both exports have an item list; otherwise it stops with no pairs |
| Matcher.Available | bw.py:187-193 | The available candidates are the same-named candidates whose id is still in their own bucket: all of them and only those, each exactly as often as it is listed among the candidates |
| Matcher.RemoveFirst | bw.py:198 | `list.remove` deletes exactly one occurrence of the id, the first, and nothing else. bw.py only removes an id that the `Live` test just found in the bucket; for an absent id, where Python's `list.remove` would raise `ValueError`, the model returns the list unchanged |
| MatchLaws.MatchWrapped | bw.py:143-151 | A dict export `{"items": xs}` matches exactly as the raw list `xs` does, on either side |
| MatchLaws.BuildIndexBuckets | bw.py:157-166 | Each digest bucket lists the ids of the destination items with that digest, in destination order; only items with an `id` are indexed; no bucket is created empty |
| MatchLaws.BuildIndexNames | bw.py:168-172 | The name index lists, per truthy name, the destination items with an `id` and that name, in order; empty and missing names are not indexed |
| MatchLaws.TotalIndex | bw.py:161-166 | The buckets together hold every indexed destination id exactly as often as the destination export does |
| MatchLaws.StepExact | bw.py:178-181 | On a non-empty bucket, the first id is paired and removed; the rest of that bucket keeps its order; other buckets, the count and the diagnostics are unchanged |
| MatchLaws.StepByName | bw.py:182-213 | On a miss, a pair is made exactly when one same-named candidate is still available: it is a destination item of that name, its id is removed from its own bucket by value, and the count and diagnostics are unchanged. Otherwise the index and the pairs are unchanged, the count grows by one, and a diagnostic listing every same-named destination id is added while the count is below 3 |
| MatchLaws.RunConserves | bw.py:174-200 | Over the source loop, the unclaimed ids in the buckets plus the ids used in pairs stay the same multiset: an id only ever moves from a bucket into a pair |
| MatchLaws.StepEffect | bw.py:175-236 | An item with an `id` is either paired, as the newest pair, or counted unmatched; an item without one changes nothing |
| MatchLaws.RunCounts | bw.py:174-236 | Pairs plus unmatched grow by exactly the number of source items with an `id`, so each yields at most one pair |
| MatchLaws.RunOrder | bw.py:175-199 | The source ids of the pairs are a subsequence of the source ids: pairs come out in source order |
| MatchLaws.RunDiagnostics | bw.py:202-236 | The counter grows on every unmatched item, but detailed diagnostics stop at 3: there are min(unmatched, 3) of them |
| MatchLaws.MatchAccounts | bw.py:143-236 | For a whole run, pairs plus unmatched equal the source items with an `id`, pairs follow source order, and there are min(unmatched, 3) diagnostics |
| MatchLaws.MatchDestinationsUsedOnce | bw.py:157-200 | No destination id is paired more often than the destination export holds it; with distinct ids no destination is paired twice; there are at most as many pairs as indexed destination ids |
| MatchLaws.MatchAligned | bw.py:157-181 | Exports that agree position by position in digest pair up position by position, with no unmatched item and no diagnostic |
| MatchLaws.MatchDuplicatesInOrder | bw.py:178-181 | Two sources and two destinations with one content pair as (S1, D1), then (S2, D2) |
| MatchLaws.MatchSelf | bw.py:157-181 | Matching an export against itself pairs every item with an `id` with itself, in order |
| MatchLaws.AlignedPairsIds | bw.py:175-181 | Position-by-position pairing uses every source id and every destination id once, in order |
| MatchLoop.AvailableLoop | bw.py:187-193 | The candidate-filter loop computes `Available` |
| MatchLoop.StepLoop | bw.py:175-236 | The body of the source loop, written with bw.py's early exits, computes one `Step` |
| MatchLoop.IndexLoop | bw.py:157-172 | The destination loop builds the index `BuildIndex` describes |
| MatchLoop.SourceLoop | bw.py:174-236 | The source loop computes the fold `Run` |
| MatchLoop.MatchByLoop | bw.py:143-236 | The imperative matcher computes `MatchBy` |
| Findings.AsWrittenKeepsTiedOrder | bw.py:97-99 | Two different URI entries share a sort key, and the stable sort keeps both of their input orders |
| Findings.AsWrittenDigestsDiffer | bw.py:93-129 | So one login with its URIs listed in two orders gets two digests |
| Findings.AsWrittenMissesReorderedItem | bw.py:174-236 | So the matcher as written leaves the reordered copy unmatched |
| Findings.CorrectedMatchesReorderedItem | bw.py:174-181 | With ties broken by content, the same pair of exports is matched |
| Findings.DigestUrisPermutation | bw.py:93-99 | Permuting `login.uris` never changes the digest under `ContentTiebreak`, and under bw.py's sort whenever no two different URI entries share a key (a sufficient condition, not a necessary one) |
| Findings.EntryKeyOrderIgnored | bw.py:93-99 | Under either policy, writing the keys of one URI entry in the other order leaves the digest unchanged, even when that entry ties with another on bw.py's key |
| Findings.DigestFido2Permutation | bw.py:101-106 | The same for `login.fido2Credentials` |
| Findings.DigestFieldsPermutation | bw.py:109-118 | The same for `fields` |

## Left out

- PBKDF2 key derivation, base64, the purge flow and its HTTP requests, and the command-line wiring. They are crypto, network and CLI code with no matching logic.
- File opening and `json.load` (bw.py:133-141). These are I/O; the model starts from the decoded values.
- The text written to stdout and stderr, and the `difflib` diff with `indent=2` (bw.py:205-235). These are formatting for humans. A diagnostic keeps only the source id, the name and the same-named destination ids.
- The `debug` flag of `get_item_hash` (bw.py:127-128). It only writes to stderr.
- SHA-256 and the byte format of `json.dumps`. The digest is the key-sorted canonical value, so the model assumes that serialisation and hashing are injective.
- The in-place rewrite of the caller's `login` dict through the shallow copy (bw.py:72, 97, 104). Canonicalisation is modelled as pure. `Digest.ItemDigestAfterLoginRewrite` shows that the rewrite cannot change a later digest.
- Python exceptions. bw.py aborts the whole run on an item that is not a dict. `"id" in item` is true for a string or list containing `id`, and then `.copy()` or `.pop(k, None)` fails; on a number or `null` the `in` test itself raises (bw.py:162, 176). Pairs printed before the failure stay printed. The model instead skips such items (`HasId` requires a dict) and carries on. A non-dict list entry or an unhashable `name` also raise in Python; the model gives them a value (`Field` yields `null`).
- JsonOrder.Cmp: on sort keys of different kinds it orders by kind. Python raises `TypeError` for most such pairs, but compares a boolean with an integer as numbers (`False == 0 < True == 1 < 2`); those pairs can meet in the `match` and `type` key positions (bw.py:99, 116). `Cmp` puts every boolean before every integer and treats `True` and `1` as different values, so entries with a boolean `match` or `type` can be ordered differently from bw.py. `Cmp` also orders two dicts by their member sequences, key order included. Python does not. In the tuple keys of `uris` and `fields` (bw.py:99, 113-117) it first compares elements with `==`, which ignores a dict's key order: two entries whose `uri` dicts differ only in key order tie, and the stable sort keeps their input order. Two unequal dicts at the first differing position raise `TypeError`. The `fido2Credentials` key (bw.py:106) is a bare value, so two dict `credentialId`s always raise. The same holds for a list holding a dict. So for entries with a dict (or a list holding one) in a key position, the as-written sort, and with it `Match` under `AsWritten`, can order and pair items where bw.py keeps the input order or stops with an error. `KeyOrder.EntryReady` and the lemmas that need bw.py's order rule such entries out.
- Matcher.NameOf: names are compared as JSON values. A Python dict would identify `True` with `1` as a name.
- Canon.Repr: does not model Python's string escapes or floats. JSON numbers are modelled as integers only.
- JsonValue.Get: takes the first member with a key, where `json.load` keeps the last of duplicated keys. The lemmas that need a real dict require `DistinctKeys`.
- KeyOrder.ItemDigestDeepKeyOrder: is proved for dict items with distinct keys at the top level and in `login`, whose `uri`, `match`, `credentialId`, `name`, `value` and `type` fields are not lists or dicts. For such a field, `str()` of a dict `value` spells its key order out, so in bw.py that order reaches the sort and then the digest. For the other fields, bw.py ignores a dict's key order or raises `TypeError` (see `JsonOrder.Cmp` above). The model's `Cmp` reads the key order for all of them, so the lemma cannot promise more there.

## Findings

| source | as written | input that shows it | evidently intended | confidence | as-written member | corrected member |
|---|---|---|---|---|---|---|
| bw.py:93-118 | The sub-lists are sorted stably by keys like `(uri or "", match or 0)`, so different entries with equal keys keep their input order. `"match": null` and `"match": 0` give equal keys. | One login exported twice: `uris` is `[{"uri":"a.com","match":null},{"uri":"a.com","match":0}]` in one export and the reverse in the other | The canonical form, and so the digest, does not depend on the order of the sub-lists. Then the two copies match. | medium; not executed | Findings.AsWrittenMissesReorderedItem | Findings.DigestUrisPermutation |

The same tie happens for `fields`: a `null` value and an `""` value both stringify to `""`. It also happens for `fido2Credentials`: two credentials can share one `credentialId`. `Findings.DigestFido2Permutation` and `Findings.DigestFieldsPermutation` prove the corrected policy for those lists too. The corrected tie-break compares the entries' normal forms before the entries as written. Without that step, two entries that differ only in key order would get different canonical orders, a difference bw.py's own sort does not make (`Findings.EntryKeyOrderIgnored`, `KeyOrder.ItemDigestDeepKeyOrder`). The matching laws in `MatchLaws` hold for any digest, and so for the corrected one.

=== FILE: canon.dfy ===
/** The canonicaliser `get_clean_item` (bw.py:70-120).

    It drops eleven identity and volatile keys from an item and sorts three
    order-independent sub-lists: `login.uris`, `login.fido2Credentials` and
    the top-level `fields`. A sub-list is sorted only when it is a non-empty
    list, and the `login` lists only when `login` is a non-empty dict.

    `Policy` selects how list entries with equal sort keys are ordered.
    `AsWritten` is bw.py: Python's stable `sorted`, so such entries keep
    their input order. `ContentTiebreak` breaks such ties by the entries'
    normal forms, the way the digest sees them, and then by the entries as
    written. Only the second makes the canonical form independent of the
    input order of the lists (see `Findings` in README.md), and comparing
    normal forms first keeps it blind to the key order inside an entry
    (see `KeyOrder`). */
module Canon {
  import opened JsonValue
  import opened JsonOrder
  import opened StableSort
  import opened JsonNormal

  datatype Policy = AsWritten | ContentTiebreak

  /** The three sub-lists the canonicaliser sorts. */
  datatype ListKind = Uris | Fido2Credentials | Fields

  /** The keys `get_clean_item` pops (bw.py:74-87); `history` is not one of them. */
  const RemovedKeys: set<string> := {
    "attachments", "collectionIds", "creationDate", "deletedDate", "folderId",
    "id", "object", "organizationId", "passwordHistory", "passwordRevisionDate",
    "revisionDate"
  }

  // ---------------------------------------------------------------------------
  // Python's str(), as far as the `fields` sort key needs it

  function DecimalDigits(n: nat): string
    decreases n
  {
    if n < 10 then ["0123456789"[n]] else DecimalDigits(n / 10) + ["0123456789"[n % 10]]
  }

  function IntToString(i: int): string {
    if i < 0 then "-" + DecimalDigits(-i) else DecimalDigits(i)
  }

  /** Python's `repr` of a decoded JSON value (string escapes not modelled). */
  function Repr(j: Json): string {
    match j
    case Null => "None"
    case Bool(b) => if b then "True" else "False"
    case Int(i) => IntToString(i)
    case Str(s) => "'" + s + "'"
    case Arr(xs) => "[" + ReprItems(xs) + "]"
    case Obj(ms) => "{" + ReprMembers(ms) + "}"
  }

  function ReprItems(xs: seq<Json>): string {
    if |xs| == 0 then ""
    else if |xs| == 1 then Repr(xs[0])
    else Repr(xs[0]) + ", " + ReprItems(xs[1..])
  }

  function ReprMembers(ms: seq<Member>): string {
    if |ms| == 0 then ""
    else
      var entry := "'" + ms[0].key + "': " + Repr(ms[0].value);
      if |ms| == 1 then entry else entry + ", " + ReprMembers(ms[1..])
  }

  /** Python's `str`: a string is itself, anything else its `repr`. */
  function Stringify(j: Json): string {
    if j.Str? then j.s else Repr(j)
  }

  // ---------------------------------------------------------------------------
  // Sort keys

  /** The key bw.py sorts each sub-list by (bw.py:99, 106, 113-117); a tuple
      key is an array. */
  function ListKey(kind: ListKind, x: Json): Json {
    match kind
    case Uris => Arr([Or(Field(x, "uri"), Str("")), Or(Field(x, "match"), Int(0))])
    case Fido2Credentials => Or(Field(x, "credentialId"), Str(""))
    case Fields =>
      Arr([Or(Field(x, "name"), Str("")),
           Str(Stringify(Or(Field(x, "value"), Str("")))),
           Or(Field(x, "type"), Int(0))])
  }

  /** The last component only orders entries with one normal form; the
      digest cannot tell those apart. */
  function SortKey(policy: Policy, kind: ListKind, x: Json): Json {
    match policy
    case AsWritten => ListKey(kind, x)
    case ContentTiebreak => Arr([ListKey(kind, x), Normalize(x), x])
  }

  function KeyFn(policy: Policy, kind: ListKind): Json -> Json {
    x => SortKey(policy, kind, x)
  }

  function SortList(policy: Policy, kind: ListKind, xs: seq<Json>): seq<Json> {
    SortBy(KeyFn(policy, kind), xs)
  }

  /** No two different entries of `xs` share a bw.py sort key. */
  predicate Distinguishable(kind: ListKind, xs: seq<Json>) {
    forall i, j :: 0 <= i < |xs| && 0 <= j < |xs| && ListKey(kind, xs[i]) == ListKey(kind, xs[j]) ==> xs[i] == xs[j]
  }

  // ---------------------------------------------------------------------------
  // The canonicaliser

  /** The entry `k` holds a non-empty list: the only case that gets sorted. */
  predicate HoldsList(ms: seq<Member>, k: string) {
    Get(ms, k).Some? && Get(ms, k).value.Arr? && |Get(ms, k).value.items| > 0
  }

  /** Sorts the list under key `k` if there is a non-empty one (bw.py:93-107, 109-118). */
  function SortEntry(ms: seq<Member>, k: string, kind: ListKind, policy: Policy): seq<Member> {
    if HoldsList(ms, k) then Put(ms, k, Arr(SortList(policy, kind, Get(ms, k).value.items))) else ms
  }

  function CleanLogin(login: seq<Member>, policy: Policy): seq<Member> {
    SortEntry(SortEntry(login, "uris", Uris, policy), "fido2Credentials", Fido2Credentials, policy)
  }

  /** The item holds a non-empty `login` dict (bw.py:92). */
  predicate HoldsLogin(ms: seq<Member>) {
    Get(ms, "login").Some? && Get(ms, "login").value.Obj? && |Get(ms, "login").value.members| > 0
  }

  function FixLogin(ms: seq<Member>, policy: Policy): seq<Member> {
    if HoldsLogin(ms) then Put(ms, "login", Obj(CleanLogin(Get(ms, "login").value.members, policy))) else ms
  }

  /** `get_clean_item` on an item's members. */
  function Clean(ms: seq<Member>, policy: Policy): seq<Member> {
    SortEntry(FixLogin(Without(ms, RemovedKeys), policy), "fields", Fields, policy)
  }

  // ---------------------------------------------------------------------------
  // Sorting one list

  /** A sorted list is a permutation of the input, ordered by key, and
      entries sharing a key keep their input order. */
  lemma SortListSpec(policy: Policy, kind: ListKind, xs: seq<Json>)
    ensures multiset(SortList(policy, kind, xs)) == multiset(xs)
    ensures Sorted(KeyFn(policy, kind), SortList(policy, kind, xs))
    ensures forall c :: WithKey(KeyFn(policy, kind), SortList(policy, kind, xs), c) == WithKey(KeyFn(policy, kind), xs, c)
  {
    SortPermutation(KeyFn(policy, kind), xs);
    SortSorted(KeyFn(policy, kind), xs);
    forall c {
      SortStable(KeyFn(policy, kind), xs, c);
    }
  }

  /** Sorting does not see the input order of a list, under the corrected
      policy always and under bw.py's when no two entries share a key. */
  lemma SortListPermutation(policy: Policy, kind: ListKind, xs: seq<Json>, ys: seq<Json>)
    requires multiset(xs) == multiset(ys)
    requires policy == ContentTiebreak || Distinguishable(kind, xs)
    ensures SortList(policy, kind, ys) == SortList(policy, kind, xs)
  {
    var key := KeyFn(policy, kind);
    forall i, j | 0 <= i < |xs| && 0 <= j < |xs| && key(xs[i]) == key(xs[j])
      ensures xs[i] == xs[j]
    {
      if policy == ContentTiebreak {
        assert Arr([ListKey(kind, xs[i]), Normalize(xs[i]), xs[i]]).items[2] == xs[i];
      }
    }
    SortPermutationInvariant(key, xs, ys);
  }

  // ---------------------------------------------------------------------------
  // Sorting one entry

  lemma SortEntryGet(ms: seq<Member>, k: string, kind: ListKind, policy: Policy, k': string)
    ensures Get(SortEntry(ms, k, kind, policy), k') ==
      if k' == k && HoldsList(ms, k) then Some(Arr(SortList(policy, kind, Get(ms, k).value.items)))
      else Get(ms, k')
  {
    if HoldsList(ms, k) {
      GetPut(ms, k, Arr(SortList(policy, kind, Get(ms, k).value.items)), k');
    }
  }

  lemma SortEntryShape(ms: seq<Member>, k: string, kind: ListKind, policy: Policy)
    ensures KeySet(SortEntry(ms, k, kind, policy)) == KeySet(ms)
    ensures |SortEntry(ms, k, kind, policy)| == |ms|
    ensures DistinctKeys(ms) ==> DistinctKeys(SortEntry(ms, k, kind, policy))
  {
    if HoldsList(ms, k) {
      var v := Arr(SortList(policy, kind, Get(ms, k).value.items));
      GetPresent(ms, k);
      PutKeys(ms, k, v);
      if DistinctKeys(ms) {
        PutDistinct(ms, k, v);
      }
    }
  }

  /** The list under `k` is already in sorted order. */
  predicate EntrySorted(ms: seq<Member>, k: string, kind: ListKind, policy: Policy) {
    HoldsList(ms, k) ==> SortList(policy, kind, Get(ms, k).value.items) == Get(ms, k).value.items
  }

  lemma SortEntryOfSorted(ms: seq<Member>, k: string, kind: ListKind, policy: Policy)
    requires EntrySorted(ms, k, kind, policy)
    ensures SortEntry(ms, k, kind, policy) == ms
  {
    if HoldsList(ms, k) {
      PutSame(ms, k, Get(ms, k).value);
    }
  }

  lemma SortEntrySorts(ms: seq<Member>, k: string, kind: ListKind, policy: Policy)
    ensures EntrySorted(SortEntry(ms, k, kind, policy), k, kind, policy)
  {
    SortEntryGet(ms, k, kind, policy, k);
    if HoldsList(ms, k) {
      SortIdempotent(KeyFn(policy, kind), Get(ms, k).value.items);
    }
  }

  lemma SortEntryIdempotent(ms: seq<Member>, k: string, kind: ListKind, policy: Policy)
    ensures SortEntry(SortEntry(ms, k, kind, policy), k, kind, policy) == SortEntry(ms, k, kind, policy)
  {
    SortEntrySorts(ms, k, kind, policy);
    SortEntryOfSorted(SortEntry(ms, k, kind, policy), k, kind, policy);
  }

  /** Sorting one entry and assigning another commute. */
  lemma SortEntryPut(ms: seq<Member>, k: string, kind: ListKind, policy: Policy, k2: string, v: Json)
    requires k != k2
    ensures SortEntry(Put(ms, k2, v), k, kind, policy) == Put(SortEntry(ms, k, kind, policy), k2, v)
  {
    GetPut(ms, k2, v, k);
    if HoldsList(ms, k) {
      GetPresent(ms, k);
      PutCommute(ms, k, Arr(SortList(policy, kind, Get(ms, k).value.items)), k2, v);
    }
  }

  /** Replacing a list by a reordering with the same sorted form changes
      nothing once the entry is sorted. */
  lemma SortEntryReplace(ms: seq<Member>, k: string, kind: ListKind, policy: Policy, ys: seq<Json>)
    requires Get(ms, k).Some? && Get(ms, k).value.Arr?
    requires multiset(ys) == multiset(Get(ms, k).value.items)
    requires SortList(policy, kind, ys) == SortList(policy, kind, Get(ms, k).value.items)
    ensures SortEntry(Put(ms, k, Arr(ys)), k, kind, policy) == SortEntry(ms, k, kind, policy)
  {
    var xs := Get(ms, k).value.items;
    assert |ys| == |xs| by {
      assert |multiset(ys)| == |multiset(xs)|;
    }
    GetPut(ms, k, Arr(ys), k);
    if |xs| == 0 {
      assert ys == xs;
      PutSame(ms, k, Arr(ys));
    } else {
      PutPut(ms, k, Arr(ys), Arr(SortList(policy, kind, xs)));
    }
  }

  // ---------------------------------------------------------------------------
  // The login dict

  lemma CleanLoginShape(login: seq<Member>, policy: Policy)
    ensures |CleanLogin(login, policy)| == |login|
    ensures KeySet(CleanLogin(login, policy)) == KeySet(login)
  {
    SortEntryShape(login, "uris", Uris, policy);
    SortEntryShape(SortEntry(login, "uris", Uris, policy), "fido2Credentials", Fido2Credentials, policy);
  }

  lemma CleanLoginIdempotent(login: seq<Member>, policy: Policy)
    ensures CleanLogin(CleanLogin(login, policy), policy) == CleanLogin(login, policy)
  {
    var u := SortEntry(login, "uris", Uris, policy);
    var c := CleanLogin(login, policy);
    SortEntrySorts(login, "uris", Uris, policy);
    SortEntryGet(u, "fido2Credentials", Fido2Credentials, policy, "uris");
    assert EntrySorted(c, "uris", Uris, policy);
    SortEntryOfSorted(c, "uris", Uris, policy);
    SortEntryIdempotent(u, "fido2Credentials", Fido2Credentials, policy);
  }

  lemma FixLoginPut(ms: seq<Member>, policy: Policy, k: string, v: Json)
    requires k != "login"
    ensures FixLogin(Put(ms, k, v), policy) == Put(FixLogin(ms, policy), k, v)
  {
    GetPut(ms, k, v, "login");
    if HoldsLogin(ms) {
      GetPresent(ms, "login");
      PutCommute(ms, "login", Obj(CleanLogin(Get(ms, "login").value.members, policy)), k, v);
    }
  }

  lemma FixLoginShape(ms: seq<Member>, policy: Policy)
    ensures KeySet(FixLogin(ms, policy)) == KeySet(ms)
    ensures DistinctKeys(ms) ==> DistinctKeys(FixLogin(ms, policy))
    ensures forall k :: k != "login" ==> Get(FixLogin(ms, policy), k) == Get(ms, k)
  {
    if HoldsLogin(ms) {
      var v := Obj(CleanLogin(Get(ms, "login").value.members, policy));
      GetPresent(ms, "login");
      PutKeys(ms, "login", v);
      if DistinctKeys(ms) {
        PutDistinct(ms, "login", v);
      }
      forall k | k != "login" {
        GetPut(ms, "login", v, k);
      }
    }
  }

  // ---------------------------------------------------------------------------
  // Properties of the canonical form

  /** Key removal (bw.py:74-89): exactly the eleven listed keys disappear,
      every other key survives, and only `login` and
      `fields` may change value. Absent keys are no error. */
  lemma CleanKeys(ms: seq<Member>, policy: Policy)
    ensures KeySet(Clean(ms, policy)) == KeySet(ms) - RemovedKeys
    ensures forall k :: k in RemovedKeys ==> Get(Clean(ms, policy), k).None?
    ensures forall k :: k !in RemovedKeys && k != "login" && k != "fields" ==> Get(Clean(ms, policy), k) == Get(ms, k)
    ensures DistinctKeys(ms) ==> DistinctKeys(Clean(ms, policy))
  {
    var w := Without(ms, RemovedKeys);
    var f := FixLogin(w, policy);
    WithoutKeys(ms, RemovedKeys);
    FixLoginShape(w, policy);
    SortEntryShape(f, "fields", Fields, policy);
    if DistinctKeys(ms) {
      WithoutDistinct(ms, RemovedKeys);
    }
    forall k | k in RemovedKeys
      ensures Get(Clean(ms, policy), k).None?
    {
      GetPresent(Clean(ms, policy), k);
    }
    forall k | k !in RemovedKeys && k != "login" && k != "fields"
      ensures Get(Clean(ms, policy), k) == Get(ms, k)
    {
      SortEntryGet(f, "fields", Fields, policy, k);
      GetWithout(ms, RemovedKeys, k);
    }
  }

  /** Sub-list sorting (bw.py:109-118): `fields` is replaced by its sorted
      form when it is a non-empty list and left alone otherwise. */
  lemma {:induction false} CleanFields(ms: seq<Member>, policy: Policy)
    ensures Get(Clean(ms, policy), "fields") ==
      if HoldsList(ms, "fields") then Some(Arr(SortList(policy, Fields, Get(ms, "fields").value.items)))
      else Get(ms, "fields")
  {
    FixLoginFields(ms, policy);
    SortEntryGet(FixLogin(Without(ms, RemovedKeys), policy), "fields", Fields, policy, "fields");
  }

  /** Sub-list sorting (bw.py:92-107): `login` is replaced by its cleaned
      form (see `CleanLoginLists`) when it is a non-empty dict and left
      alone otherwise. */
  lemma {:induction false} CleanLoginEntry(ms: seq<Member>, policy: Policy)
    ensures Get(Clean(ms, policy), "login") ==
      if HoldsLogin(ms) then Some(Obj(CleanLogin(Get(ms, "login").value.members, policy)))
      else Get(ms, "login")
  {
    var w := Without(ms, RemovedKeys);
    var f := FixLogin(w, policy);
    GetWithout(ms, RemovedKeys, "login");
    SortEntryGet(f, "fields", Fields, policy, "login");
    if HoldsLogin(w) {
      GetPut(w, "login", Obj(CleanLogin(Get(w, "login").value.members, policy)), "login");
    }
  }

  /** The cleaned `login` dict has its `uris` and `fido2Credentials` sorted
      when they are non-empty lists, and is otherwise the input dict. */
  lemma {:induction false} CleanLoginLists(login: seq<Member>, policy: Policy)
    ensures Get(CleanLogin(login, policy), "uris") ==
      if HoldsList(login, "uris") then Some(Arr(SortList(policy, Uris, Get(login, "uris").value.items)))
      else Get(login, "uris")
    ensures Get(CleanLogin(login, policy), "fido2Credentials") ==
      if HoldsList(login, "fido2Credentials")
      then Some(Arr(SortList(policy, Fido2Credentials, Get(login, "fido2Credentials").value.items)))
      else Get(login, "fido2Credentials")
    ensures forall k :: k != "uris" && k != "fido2Credentials" ==> Get(CleanLogin(login, policy), k) == Get(login, k)
  {
    var u := SortEntry(login, "uris", Uris, policy);
    SortEntryGet(login, "uris", Uris, policy, "uris");
    SortEntryGet(login, "uris", Uris, policy, "fido2Credentials");
    SortEntryGet(u, "fido2Credentials", Fido2Credentials, policy, "uris");
    SortEntryGet(u, "fido2Credentials", Fido2Credentials, policy, "fido2Credentials");
    forall k | k != "uris" && k != "fido2Credentials"
      ensures Get(CleanLogin(login, policy), k) == Get(login, k)
    {
      SortEntryGet(login, "uris", Uris, policy, k);
      SortEntryGet(u, "fido2Credentials", Fido2Credentials, policy, k);
    }
  }

  /** Canonicalising twice is canonicalising once. */
  lemma CleanIdempotent(ms: seq<Member>, policy: Policy)
    ensures Clean(Clean(ms, policy), policy) == Clean(ms, policy)
  {
    var w := Without(ms, RemovedKeys);
    var f := FixLogin(w, policy);
    var c := Clean(ms, policy);
    // Nothing is left to remove.
    CleanKeys(ms, policy);
    WithoutAbsent(c, RemovedKeys);
    // The login dict is already clean.
    SortEntryGet(f, "fields", Fields, policy, "login");
    FixLoginShape(w, policy);
    if HoldsLogin(w) {
      var l := Get(w, "login").value.members;
      GetPut(w, "login", Obj(CleanLogin(l, policy)), "login");
      CleanLoginShape(l, policy);
      CleanLoginIdempotent(l, policy);
      PutSame(c, "login", Obj(CleanLogin(l, policy)));
    }
    assert FixLogin(c, policy) == c;
    // The fields list is already sorted.
    SortEntryIdempotent(f, "fields", Fields, policy);
  }

  /** Changes confined to removed keys (setting, adding or dropping one)
      leave the canonical form alone. */
  lemma CleanIgnoresRemovedKeys(ms: seq<Member>, policy: Policy, k: string, v: Json)
    requires k in RemovedKeys
    ensures Clean(Put(ms, k, v), policy) == Clean(ms, policy)
    ensures Clean(Without(ms, {k}), policy) == Clean(ms, policy)
  {
    WithoutPut(ms, RemovedKeys, k, v);
    WithoutTwice(ms, {k}, RemovedKeys);
  }

  /** Reordering the top-level `fields` list leaves the canonical form alone,
      under the corrected policy always and under bw.py's when no two
      entries share a sort key. */
  lemma CleanFieldsPermutation(ms: seq<Member>, policy: Policy, ys: seq<Json>)
    requires Get(ms, "fields").Some? && Get(ms, "fields").value.Arr?
    requires multiset(ys) == multiset(Get(ms, "fields").value.items)
    requires policy == ContentTiebreak || Distinguishable(Fields, Get(ms, "fields").value.items)
    ensures Clean(Put(ms, "fields", Arr(ys)), policy) == Clean(ms, policy)
  {
    var xs := Get(ms, "fields").value.items;
    var f := FixLogin(Without(ms, RemovedKeys), policy);
    CleanPutFields(ms, policy, Arr(ys));
    FixLoginFields(ms, policy);
    SortListPermutation(policy, Fields, xs, ys);
    SortEntryReplace(f, "fields", Fields, policy, ys);
  }

  /** Assigning `fields` before canonicalising is assigning it after the
      login step. */
  lemma CleanPutFields(ms: seq<Member>, policy: Policy, v: Json)
    ensures Clean(Put(ms, "fields", v), policy) ==
      SortEntry(Put(FixLogin(Without(ms, RemovedKeys), policy), "fields", v), "fields", Fields, policy)
  {
    assert "fields" !in RemovedKeys;
    WithoutPut(ms, RemovedKeys, "fields", v);
    FixLoginPut(Without(ms, RemovedKeys), policy, "fields", v);
  }

  /** The login step leaves `fields` as the item had it. */
  lemma FixLoginFields(ms: seq<Member>, policy: Policy)
    ensures Get(FixLogin(Without(ms, RemovedKeys), policy), "fields") == Get(ms, "fields")
  {
    GetWithout(ms, RemovedKeys, "fields");
    FixLoginShape(Without(ms, RemovedKeys), policy);
  }

  /** The same for `login.uris`. */
  lemma CleanUrisPermutation(ms: seq<Member>, policy: Policy, ys: seq<Json>)
    requires Get(ms, "login").Some? && Get(ms, "login").value.Obj?
    requires var l := Get(ms, "login").value.members; Get(l, "uris").Some? && Get(l, "uris").value.Arr?
    requires multiset(ys) == multiset(Get(Get(ms, "login").value.members, "uris").value.items)
    requires policy == ContentTiebreak || Distinguishable(Uris, Get(Get(ms, "login").value.members, "uris").value.items)
    ensures var l := Get(ms, "login").value.members;
      Clean(Put(ms, "login", Obj(Put(l, "uris", Arr(ys)))), policy) == Clean(ms, policy)
  {
    var l := Get(ms, "login").value.members;
    var xs := Get(l, "uris").value.items;
    var l' := Put(l, "uris", Arr(ys));
    SortListPermutation(policy, Uris, xs, ys);
    SortEntryReplace(l, "uris", Uris, policy, ys);
    assert CleanLogin(l', policy) == CleanLogin(l, policy);
    CleanReplaceLogin(ms, policy, l');
  }

  /** The same for `login.fido2Credentials`. */
  lemma CleanFido2Permutation(ms: seq<Member>, policy: Policy, ys: seq<Json>)
    requires Get(ms, "login").Some? && Get(ms, "login").value.Obj?
    requires var l := Get(ms, "login").value.members;
      Get(l, "fido2Credentials").Some? && Get(l, "fido2Credentials").value.Arr?
    requires multiset(ys) == multiset(Get(Get(ms, "login").value.members, "fido2Credentials").value.items)
    requires policy == ContentTiebreak ||
      Distinguishable(Fido2Credentials, Get(Get(ms, "login").value.members, "fido2Credentials").value.items)
    ensures var l := Get(ms, "login").value.members;
      Clean(Put(ms, "login", Obj(Put(l, "fido2Credentials", Arr(ys)))), policy) == Clean(ms, policy)
  {
    var l := Get(ms, "login").value.members;
    var xs := Get(l, "fido2Credentials").value.items;
    var l' := Put(l, "fido2Credentials", Arr(ys));
    var u := SortEntry(l, "uris", Uris, policy);
    SortListPermutation(policy, Fido2Credentials, xs, ys);
    SortEntryPut(l, "uris", Uris, policy, "fido2Credentials", Arr(ys));
    SortEntryGet(l, "uris", Uris, policy, "fido2Credentials");
    SortEntryReplace(u, "fido2Credentials", Fido2Credentials, policy, ys);
    assert CleanLogin(l', policy) == CleanLogin(l, policy);
    CleanReplaceLogin(ms, policy, l');
  }

  /** Replacing a non-empty `login` dict by another with the same cleaned
      form leaves the canonical form alone. */
  lemma CleanReplaceLogin(ms: seq<Member>, policy: Policy, l': seq<Member>)
    requires Get(ms, "login").Some? && Get(ms, "login").value.Obj?
    requires |l'| > 0 && |Get(ms, "login").value.members| > 0
    requires CleanLogin(l', policy) == CleanLogin(Get(ms, "login").value.members, policy)
    ensures Clean(Put(ms, "login", Obj(l')), policy) == Clean(ms, policy)
  {
    var w := Without(ms, RemovedKeys);
    var w' := Put(w, "login", Obj(l'));
    WithoutPut(ms, RemovedKeys, "login", Obj(l'));
    GetWithout(ms, RemovedKeys, "login");
    GetPut(w, "login", Obj(l'), "login");
    assert HoldsLogin(w) && HoldsLogin(w');
    PutPut(w, "login", Obj(l'), Obj(CleanLogin(l', policy)));
  }
}

=== FILE: digest.dfy ===
/** The item digest `get_item_hash` (bw.py:123-129).

    bw.py serialises the canonical form with `json.dumps(..., sort_keys=True)`
    and hashes the text with SHA-256. The model keeps the part of that which
    decides equality: `Normalize` (module `JsonNormal`) puts every object's
    keys in sorted order, as `sort_keys=True` does, and the digest is the
    normalised canonical value itself. This takes serialisation and SHA-256
    to be injective: two items get the same digest exactly when their
    normalised canonical forms are equal. */
module Digest {
  import opened JsonValue
  import opened JsonOrder
  import opened StableSort
  import opened Canon
  import opened JsonNormal

  /** `get_item_hash` on an item's members. */
  function ItemDigest(ms: seq<Member>, policy: Policy): Json {
    Normalize(Obj(Clean(ms, policy)))
  }

  // ---------------------------------------------------------------------------

  lemma {:induction false} NormalizeMembersAppend(ms: seq<Member>, ns: seq<Member>)
    ensures NormalizeMembers(ms + ns) == NormalizeMembers(ms) + NormalizeMembers(ns)
  {
    if |ms| == 0 {
      assert ms + ns == ns;
    } else {
      assert (ms + ns)[1..] == ms[1..] + ns;
      NormalizeMembersAppend(ms[1..], ns);
    }
  }

  lemma MultisetRemoveAt<T>(ns: seq<T>, i: nat)
    requires i < |ns|
    ensures multiset(ns) == multiset(ns[..i] + ns[i + 1..]) + multiset{ns[i]}
  {
    assert ns == ns[..i] + [ns[i]] + ns[i + 1..];
  }

  lemma MultisetSplice<T>(a: seq<T>, y: T, b: seq<T>)
    ensures multiset(a + ([y] + b)) == multiset(a + b) + multiset{y}
  {
  }

  lemma NormalizeMembersSplit(ns: seq<Member>, i: nat)
    requires i < |ns|
    ensures NormalizeMembers(ns) ==
      NormalizeMembers(ns[..i]) + ([Member(ns[i].key, Normalize(ns[i].value))] + NormalizeMembers(ns[i + 1..]))
  {
    var a, x, b := ns[..i], ns[i], ns[i + 1..];
    assert ns[i..] == [x] + b;
    assert ns == a + ns[i..];
    NormalizeMembersAppend(a, [x] + b);
    NormalizeMembersCons(x, b);
  }

  lemma NormalizeMembersCons(x: Member, b: seq<Member>)
    ensures NormalizeMembers([x] + b) == [Member(x.key, Normalize(x.value))] + NormalizeMembers(b)
  {
    assert ([x] + b)[0] == x && ([x] + b)[1..] == b;
  }

  lemma NormalizeMembersRemoveAt(ns: seq<Member>, i: nat)
    requires i < |ns|
    ensures multiset(NormalizeMembers(ns)) ==
      multiset(NormalizeMembers(ns[..i] + ns[i + 1..])) + multiset{Member(ns[i].key, Normalize(ns[i].value))}
  {
    NormalizeMembersSplit(ns, i);
    NormalizeMembersAppend(ns[..i], ns[i + 1..]);
    MultisetSplice(NormalizeMembers(ns[..i]), Member(ns[i].key, Normalize(ns[i].value)), NormalizeMembers(ns[i + 1..]));
  }

  lemma {:induction false} NormalizeMembersPermutation(ms: seq<Member>, ns: seq<Member>)
    requires multiset(ms) == multiset(ns)
    ensures multiset(NormalizeMembers(ms)) == multiset(NormalizeMembers(ns))
    decreases |ms|
  {
    if |ms| == 0 {
      assert |multiset(ns)| == 0;
    } else {
      assert ms[0] in multiset(ns);
      var i :| 0 <= i < |ns| && ns[i] == ms[0];
      var rest := ns[..i] + ns[i + 1..];
      MultisetRemoveAt(ns, i);
      assert ms == [ms[0]] + ms[1..];
      assert multiset(ms[1..]) == multiset(ms) - multiset{ms[0]};
      assert multiset(rest) == multiset(ns) - multiset{ms[0]};
      NormalizeMembersPermutation(ms[1..], rest);
      NormalizeMembersRemoveAt(ns, i);
      assert NormalizeMembers(ms) == [Member(ms[0].key, Normalize(ms[0].value))] + NormalizeMembers(ms[1..]);
    }
  }

  lemma NormalizeMembersDistinct(ms: seq<Member>)
    requires DistinctKeys(ms)
    ensures DistinctKeys(NormalizeMembers(ms))
  {
    NormalizeMembersKeys(ms);
  }

  /** `sort_keys=True`: the order of an object's keys does not reach the digest. */
  lemma NormalizeKeyOrder(ms: seq<Member>, ns: seq<Member>)
    requires DistinctKeys(ms) && multiset(ms) == multiset(ns)
    ensures Normalize(Obj(ms)) == Normalize(Obj(ns))
  {
    var a := NormalizeMembers(ms);
    NormalizeMembersPermutation(ms, ns);
    NormalizeMembersDistinct(ms);
    forall i, j | 0 <= i < |a| && 0 <= j < |a| && MemberKey(a[i]) == MemberKey(a[j])
      ensures a[i] == a[j]
    {
      assert a[i].key == a[j].key;
    }
    SortPermutationInvariant(MemberKey, a, NormalizeMembers(ns));
  }

  /** Canonicalising two orderings of one item gives two orderings of one dict. */
  lemma CleanPermutation(ms: seq<Member>, ns: seq<Member>, policy: Policy)
    requires DistinctKeys(ms) && DistinctKeys(ns) && multiset(ms) == multiset(ns)
    ensures multiset(Clean(ms, policy)) == multiset(Clean(ns, policy))
  {
    var w, w' := Without(ms, RemovedKeys), Without(ns, RemovedKeys);
    WithoutPermutation(ms, ns, RemovedKeys);
    WithoutDistinct(ms, RemovedKeys);
    WithoutDistinct(ns, RemovedKeys);
    GetPermutation(w, w', "login");
    var f, f' := FixLogin(w, policy), FixLogin(w', policy);
    if HoldsLogin(w) {
      PutPermutation(w, w', "login", Obj(CleanLogin(Get(w, "login").value.members, policy)));
    }
    FixLoginShape(w, policy);
    FixLoginShape(w', policy);
    GetPermutation(f, f', "fields");
    if HoldsList(f, "fields") {
      PutPermutation(f, f', "fields", Arr(SortList(policy, Fields, Get(f, "fields").value.items)));
    }
  }

  /** Reordering an item's keys leaves its digest alone. */
  lemma ItemDigestKeyOrder(ms: seq<Member>, ns: seq<Member>, policy: Policy)
    requires DistinctKeys(ms) && DistinctKeys(ns) && multiset(ms) == multiset(ns)
    ensures ItemDigest(ms, policy) == ItemDigest(ns, policy)
  {
    CleanPermutation(ms, ns, policy);
    CleanKeys(ms, policy);
    NormalizeKeyOrder(Clean(ms, policy), Clean(ns, policy));
  }

  /** Hashing an item again after bw.py has sorted its `login` lists in
      place (the copy at bw.py:72 is shallow, so bw.py:97 and 104 write into
      the caller's dict) gives the digest it had before. */
  lemma ItemDigestAfterLoginRewrite(ms: seq<Member>, policy: Policy)
    requires Get(ms, "login").Some? && Get(ms, "login").value.Obj? && |Get(ms, "login").value.members| > 0
    ensures var l := Get(ms, "login").value.members;
      ItemDigest(Put(ms, "login", Obj(CleanLogin(l, policy))), policy) == ItemDigest(ms, policy)
  {
    var l := Get(ms, "login").value.members;
    CleanLoginShape(l, policy);
    CleanLoginIdempotent(l, policy);
    CleanReplaceLogin(ms, policy, CleanLogin(l, policy));
  }
}

=== FILE: findings.dfy ===
/** The canonical form bw.py computes depends on the input order of a
    sub-list whenever two different entries of it share a sort key.

    `sorted` is stable, so entries with equal keys keep their input order.
    For `login.uris` the key is `(uri or "", match or 0)`, and an entry with
    `"match": null` gets the same key as one with `"match": 0`. Two exports
    of one login that list these two entries in opposite orders therefore
    canonicalise differently, get different digests, and are not matched.
    The same happens for `fields` (the value `null` and the value `""` both
    stringify to the empty string) and for `fido2Credentials` (any two
    credentials with one `credentialId`).

    The as-written half is the concrete pair of items below. The corrected
    half is `ContentTiebreak`, which breaks key ties by the entries' normal
    forms and then by the entries themselves: under it, reordering any of the three lists never changes
    an item's digest. */
module Findings {
  import opened JsonValue
  import opened Canon
  import opened Digest
  import opened JsonNormal
  import opened Matcher
  import opened MatchLaws
  import opened KeyOrder

  const NullMatch: Json := Obj([Member("uri", Str("a.com")), Member("match", Null)])
  const ZeroMatch: Json := Obj([Member("uri", Str("a.com")), Member("match", Int(0))])
  /** `NullMatch` with its two keys written the other way round. */
  const NullMatchReordered: Json := Obj([Member("match", Null), Member("uri", Str("a.com"))])

  function LoginItem(id: string, uris: seq<Json>): Json {
    Obj([Member("id", Str(id)), Member("login", Obj([Member("uris", Arr(uris))]))])
  }

  /** One login exported twice, its two URIs listed in opposite orders. */
  const SourceItem: Json := LoginItem("s", [NullMatch, ZeroMatch])
  const DestItem: Json := LoginItem("d", [ZeroMatch, NullMatch])

  // ---------------------------------------------------------------------------
  // The digest of a one-list login item

  lemma SortSingle(key: Member -> Json, x: Member)
    ensures StableSort.SortBy(key, [x]) == [x]
  {
    assert [x][1..] == [];
  }

  lemma CleanLoginItem(id: string, uris: seq<Json>, policy: Policy)
    requires |uris| > 0
    ensures Clean(LoginItem(id, uris).members, policy) ==
      [Member("login", Obj([Member("uris", Arr(SortList(policy, Uris, uris)))]))]
  {
    var ms := LoginItem(id, uris).members;
    var login := Member("login", Obj([Member("uris", Arr(uris))]));
    assert ms[1..] == [login] && [login][1..] == [];
    assert "id" in RemovedKeys && "login" !in RemovedKeys;
    assert Without([login], RemovedKeys) == [login] + Without([], RemovedKeys);
    assert Without(ms, RemovedKeys) == [login];
    var l := [Member("uris", Arr(uris))];
    var sorted := [Member("uris", Arr(SortList(policy, Uris, uris)))];
    assert SortEntry(l, "uris", Uris, policy) == sorted;
    assert sorted[1..] == [];
    assert Get(sorted, "fido2Credentials") == Get(sorted[1..], "fido2Credentials") == None;
    assert CleanLogin(l, policy) == sorted;
    var fixed := [Member("login", Obj(sorted))];
    assert FixLogin([login], policy) == fixed;
    assert fixed[1..] == [];
    assert Get(fixed, "fields") == Get(fixed[1..], "fields") == None;
  }

  lemma DigestLoginItem(id: string, uris: seq<Json>, policy: Policy)
    requires |uris| > 0
    ensures DigestOf(policy, LoginItem(id, uris)) ==
      Obj([Member("login", Obj([Member("uris", Arr(NormalizeItems(SortList(policy, Uris, uris))))]))])
  {
    CleanLoginItem(id, uris, policy);
    var inner := Member("uris", Arr(NormalizeItems(SortList(policy, Uris, uris))));
    var outer := Member("login", Obj([inner]));
    var u := Member("uris", Arr(SortList(policy, Uris, uris)));
    assert [u][1..] == [];
    assert NormalizeMembers([u]) == [inner];
    SortSingle(MemberKey, inner);
    var lg := Member("login", Obj([u]));
    assert [lg][1..] == [];
    assert NormalizeMembers([lg]) == [outer];
    SortSingle(MemberKey, outer);
  }

  lemma NormalizedUrisDiffer()
    ensures Normalize(NullMatch) != Normalize(ZeroMatch)
  {
    FieldNormalize(NullMatch, "match");
    FieldNormalize(ZeroMatch, "match");
    assert Field(NullMatch, "match") == Null && Field(ZeroMatch, "match") == Int(0);
  }

  // ---------------------------------------------------------------------------
  // As written

  /** The two URI entries share bw.py's sort key, so the stable sort keeps
      each list as it came. */
  lemma AsWrittenKeepsTiedOrder()
    ensures ListKey(Uris, NullMatch) == ListKey(Uris, ZeroMatch)
    ensures multiset([NullMatch, ZeroMatch]) == multiset([ZeroMatch, NullMatch])
    ensures SortList(AsWritten, Uris, [NullMatch, ZeroMatch]) == [NullMatch, ZeroMatch]
    ensures SortList(AsWritten, Uris, [ZeroMatch, NullMatch]) == [ZeroMatch, NullMatch]
  {
    var key := KeyFn(AsWritten, Uris);
    assert key(NullMatch) == key(ZeroMatch) == Arr([Str("a.com"), Int(0)]);
    JsonOrder.CmpEqual(key(NullMatch), key(ZeroMatch));
    assert [NullMatch, ZeroMatch][1..] == [ZeroMatch] && [ZeroMatch][1..] == [];
    assert [ZeroMatch, NullMatch][1..] == [NullMatch] && [NullMatch][1..] == [];
    assert StableSort.SortBy(key, [ZeroMatch]) == [ZeroMatch];
    assert StableSort.SortBy(key, [NullMatch]) == [NullMatch];
  }

  /** So the two copies of the login get different digests. */
  lemma AsWrittenDigestsDiffer()
    ensures DigestOf(AsWritten, SourceItem) != DigestOf(AsWritten, DestItem)
  {
    AsWrittenKeepsTiedOrder();
    DigestLoginItem("s", [NullMatch, ZeroMatch], AsWritten);
    DigestLoginItem("d", [ZeroMatch, NullMatch], AsWritten);
    NormalizedUrisDiffer();
    assert [NullMatch, ZeroMatch][1..] == [ZeroMatch];
    assert NormalizeItems([NullMatch, ZeroMatch])[0] == Normalize(NullMatch);
    assert NormalizeItems([ZeroMatch, NullMatch])[0] == Normalize(ZeroMatch);
  }

  /** bw.py leaves the reordered copy unmatched. */
  lemma AsWrittenMissesReorderedItem()
    ensures Match(AsWritten, Arr([SourceItem]), Arr([DestItem])) ==
      Matched(Outcome([], 1, [NoMatch(Str("s"), Null, [])]))
  {
    AsWrittenDigestsDiffer();
    var digest := Hasher(AsWritten);
    var ix := BuildIndex(digest, [DestItem]);
    assert [DestItem][..0] == [] && [SourceItem][..0] == [];
    assert IdOf(DestItem) == Str("d") && IdOf(SourceItem) == Str("s");
    assert HasId(DestItem);
    assert BuildIndex(digest, [DestItem]) == AddDest(digest, BuildIndex(digest, []), DestItem);
    var empty: map<Json, seq<Id>> := map[];
    assert Lookup(empty, digest(DestItem)) == [];
    assert ix.buckets == empty[digest(DestItem) := [] + [Str("d")]];
    var ms := SourceItem.members;
    assert Get(ms, "name") == Get(ms[1..], "name") == Get(ms[1..][1..], "name") == None;
    assert NameOf(SourceItem) == Null;
    var init := State(ix.buckets, [], 0, []);
    assert digest(SourceItem) !in init.buckets;
    assert Available(digest, init.buckets, []) == [];
    assert Step(digest, ix.byName, init, SourceItem) == State(ix.buckets, [], 1, [NoMatch(Str("s"), Null, [])]);
    assert Run(digest, ix.byName, init, [SourceItem]) == Step(digest, ix.byName, init, SourceItem);
  }

  // ---------------------------------------------------------------------------
  // Corrected

  /** Reordering `login.uris` never changes the digest under `ContentTiebreak`;
      under bw.py's policy it does not either when no two different entries
      share a key (entries that tie but have one normal form are harmless
      too, so the condition is sufficient, not necessary). */
  lemma DigestUrisPermutation(ms: seq<Member>, policy: Policy, ys: seq<Json>)
    requires Get(ms, "login").Some? && Get(ms, "login").value.Obj?
    requires var l := Get(ms, "login").value.members; Get(l, "uris").Some? && Get(l, "uris").value.Arr?
    requires multiset(ys) == multiset(Get(Get(ms, "login").value.members, "uris").value.items)
    requires policy == ContentTiebreak || Distinguishable(Uris, Get(Get(ms, "login").value.members, "uris").value.items)
    ensures var l := Get(ms, "login").value.members;
      ItemDigest(Put(ms, "login", Obj(Put(l, "uris", Arr(ys)))), policy) == ItemDigest(ms, policy)
  {
    CleanUrisPermutation(ms, policy, ys);
  }

  /** The same for `login.fido2Credentials`. */
  lemma DigestFido2Permutation(ms: seq<Member>, policy: Policy, ys: seq<Json>)
    requires Get(ms, "login").Some? && Get(ms, "login").value.Obj?
    requires var l := Get(ms, "login").value.members;
      Get(l, "fido2Credentials").Some? && Get(l, "fido2Credentials").value.Arr?
    requires multiset(ys) == multiset(Get(Get(ms, "login").value.members, "fido2Credentials").value.items)
    requires policy == ContentTiebreak ||
      Distinguishable(Fido2Credentials, Get(Get(ms, "login").value.members, "fido2Credentials").value.items)
    ensures var l := Get(ms, "login").value.members;
      ItemDigest(Put(ms, "login", Obj(Put(l, "fido2Credentials", Arr(ys)))), policy) == ItemDigest(ms, policy)
  {
    CleanFido2Permutation(ms, policy, ys);
  }

  /** The same for the top-level `fields`. */
  lemma DigestFieldsPermutation(ms: seq<Member>, policy: Policy, ys: seq<Json>)
    requires Get(ms, "fields").Some? && Get(ms, "fields").value.Arr?
    requires multiset(ys) == multiset(Get(ms, "fields").value.items)
    requires policy == ContentTiebreak || Distinguishable(Fields, Get(ms, "fields").value.items)
    ensures ItemDigest(Put(ms, "fields", Arr(ys)), policy) == ItemDigest(ms, policy)
  {
    CleanFieldsPermutation(ms, policy, ys);
  }

  /** With the tie broken by content, the reordered copy is matched. */
  lemma CorrectedMatchesReorderedItem()
    ensures Match(ContentTiebreak, Arr([SourceItem]), Arr([DestItem])) ==
      Matched(Outcome([Pair(Str("s"), Str("d"))], 0, []))
  {
    CorrectedDigestsAgree();
    var digest := Hasher(ContentTiebreak);
    assert HasId(SourceItem) && HasId(DestItem);
    assert Aligned(digest, [SourceItem], [DestItem]);
    MatchAligned(digest, [SourceItem], [DestItem]);
    assert [SourceItem][..0] == [] && [DestItem][..0] == [];
  }

  lemma CorrectedDigestsAgree()
    ensures DigestOf(ContentTiebreak, SourceItem) == DigestOf(ContentTiebreak, DestItem)
  {
    SortListPermutation(ContentTiebreak, Uris, [NullMatch, ZeroMatch], [ZeroMatch, NullMatch]);
    DigestLoginItem("s", [NullMatch, ZeroMatch], ContentTiebreak);
    DigestLoginItem("d", [ZeroMatch, NullMatch], ContentTiebreak);
  }

  lemma NullMatchKeyOrder()
    ensures Normalize(NullMatch) == Normalize(NullMatchReordered)
  {
    var a, a' := NullMatch.members, NullMatchReordered.members;
    assert a == [a[0]] + [a[1]] && a' == [a[1]] + [a[0]];
    assert multiset(a) == multiset(a');
    NormalizeKeyOrder(a, a');
  }

  lemma UriEntriesReady()
    ensures EntryReady(Uris, NullMatch) && EntryReady(Uris, ZeroMatch) && EntryReady(Uris, NullMatchReordered)
  {
    assert Field(NullMatch, "uri") == Str("a.com") && Field(NullMatch, "match") == Null;
    assert Field(ZeroMatch, "uri") == Str("a.com") && Field(ZeroMatch, "match") == Int(0);
    assert NullMatchReordered.members[1..] == [Member("uri", Str("a.com"))];
    assert Field(NullMatchReordered, "uri") == Str("a.com") && Field(NullMatchReordered, "match") == Null;
  }

  /** The corrected tie-break compares normal forms first, so, like bw.py's
      own sort, it does not see the key order inside a URI entry, even
      between entries whose bw.py keys tie. */
  lemma EntryKeyOrderIgnored(policy: Policy)
    ensures DigestOf(policy, LoginItem("s", [NullMatch, ZeroMatch])) ==
      DigestOf(policy, LoginItem("d", [NullMatchReordered, ZeroMatch]))
  {
    var xs, ys := [NullMatch, ZeroMatch], [NullMatchReordered, ZeroMatch];
    NullMatchKeyOrder();
    UriEntriesReady();
    assert xs[1..] == ys[1..] == [ZeroMatch];
    assert NormalizeItems(xs) == [Normalize(NullMatch)] + NormalizeItems([ZeroMatch]);
    assert NormalizeItems(ys) == [Normalize(NullMatchReordered)] + NormalizeItems([ZeroMatch]);
    SortListNormalize(policy, Uris, xs);
    SortListNormalize(policy, Uris, ys);
    DigestLoginItem("s", xs, policy);
    DigestLoginItem("d", ys, policy);
  }
}

=== FILE: json.dfy ===
/** Decoded JSON values as the matcher sees them after `json.load`, and the
    handful of Python dict operations the canonicaliser uses on them.

    An object is a sequence of members in insertion order, because a Python
    dict remembers the order its keys were inserted in; the lookups below all
    act on the first member carrying a key, which for a real dict (distinct
    keys, see `DistinctKeys`) is the only one. */
module JsonValue {

  datatype Option<+T> = None | Some(value: T)

  /** One `key: value` entry of a JSON object. */
  datatype Member = Member(key: string, value: Json)

  datatype Json =
    | Null
    | Bool(b: bool)
    | Int(i: int)
    | Str(s: string)
    | Arr(items: seq<Json>)
    | Obj(members: seq<Member>)

  /** Python truthiness: `None`, `False`, `0`, `""`, `[]` and `{}` are false. */
  predicate Truthy(j: Json) {
    match j
    case Null => false
    case Bool(b) => b
    case Int(i) => i != 0
    case Str(s) => |s| > 0
    case Arr(xs) => |xs| > 0
    case Obj(ms) => |ms| > 0
  }

  /** Python's `a or b`. */
  function Or(a: Json, b: Json): Json {
    if Truthy(a) then a else b
  }

  /** The set of keys of an object. */
  function KeySet(ms: seq<Member>): set<string> {
    set m | m in ms :: m.key
  }

  /** A Python dict never holds a key twice. */
  predicate DistinctKeys(ms: seq<Member>) {
    forall i, j :: 0 <= i < j < |ms| ==> ms[i].key != ms[j].key
  }

  /** `d.get(k)`, with `None` for a missing key. */
  function Get(ms: seq<Member>, k: string): Option<Json> {
    if |ms| == 0 then None
    else if ms[0].key == k then Some(ms[0].value)
    else Get(ms[1..], k)
  }

  /** `x.get(k)` on a value that may not be a dict: JSON `null` when absent. */
  function Field(x: Json, k: string): Json {
    if x.Obj? then (match Get(x.members, k) case Some(v) => v case None => Null) else Null
  }

  /** `d[k] = v`: an existing key keeps its position, a new key goes last. */
  function Put(ms: seq<Member>, k: string, v: Json): seq<Member> {
    if |ms| == 0 then [Member(k, v)]
    else if ms[0].key == k then [Member(k, v)] + ms[1..]
    else [ms[0]] + Put(ms[1..], k, v)
  }

  /** `d.pop(k, None)` for every `k` in `ks`; the order of the rest is kept. */
  function Without(ms: seq<Member>, ks: set<string>): seq<Member> {
    if |ms| == 0 then []
    else if ms[0].key in ks then Without(ms[1..], ks)
    else [ms[0]] + Without(ms[1..], ks)
  }

  // ---------------------------------------------------------------------------
  // Lookup

  lemma {:induction false} GetPresent(ms: seq<Member>, k: string)
    ensures Get(ms, k).Some? <==> k in KeySet(ms)
    ensures Get(ms, k).Some? ==> Member(k, Get(ms, k).value) in ms
  {
    if |ms| > 0 {
      GetPresent(ms[1..], k);
      assert KeySet(ms) == {ms[0].key} + KeySet(ms[1..]) by {
        assert ms == [ms[0]] + ms[1..];
      }
    }
  }

  lemma DistinctTail(ms: seq<Member>)
    requires |ms| > 0 && DistinctKeys(ms)
    ensures DistinctKeys(ms[1..]) && ms[0].key !in KeySet(ms[1..])
  {
    forall m | m in ms[1..]
      ensures m.key != ms[0].key
    {
      var i :| 0 <= i < |ms[1..]| && ms[1..][i] == m;
      assert ms[i + 1] == m;
    }
  }

  /** In a dict, `d.get(k) == v` exactly when `k: v` is one of its entries. */
  lemma {:induction false} GetMember(ms: seq<Member>, k: string, v: Json)
    requires DistinctKeys(ms)
    ensures Get(ms, k) == Some(v) <==> Member(k, v) in ms
  {
    GetPresent(ms, k);
    if |ms| > 0 {
      DistinctTail(ms);
      GetMember(ms[1..], k, v);
      assert ms == [ms[0]] + ms[1..];
      assert Member(k, v) in ms[1..] ==> k in KeySet(ms[1..]);
    }
  }

  // ---------------------------------------------------------------------------
  // Assignment

  lemma {:induction false} GetPut(ms: seq<Member>, k: string, v: Json, k': string)
    ensures Get(Put(ms, k, v), k') == if k' == k then Some(v) else Get(ms, k')
  {
    if |ms| > 0 && ms[0].key != k {
      GetPut(ms[1..], k, v, k');
    }
  }

  lemma {:induction false} PutKeys(ms: seq<Member>, k: string, v: Json)
    ensures KeySet(Put(ms, k, v)) == KeySet(ms) + {k}
    ensures k in KeySet(ms) ==> |Put(ms, k, v)| == |ms|
  {
    if |ms| > 0 {
      PutKeys(ms[1..], k, v);
      assert ms == [ms[0]] + ms[1..];
      if ms[0].key == k {
        assert KeySet(Put(ms, k, v)) == {k} + KeySet(ms[1..]) by {
          assert Put(ms, k, v) == [Member(k, v)] + ms[1..];
        }
      } else {
        assert Put(ms, k, v) == [ms[0]] + Put(ms[1..], k, v);
        assert KeySet(Put(ms, k, v)) == {ms[0].key} + KeySet(Put(ms[1..], k, v));
      }
    }
  }

  /** Writing back the value a key already has changes nothing. */
  lemma {:induction false} PutSame(ms: seq<Member>, k: string, v: Json)
    requires Get(ms, k) == Some(v)
    ensures Put(ms, k, v) == ms
  {
    if ms[0].key != k {
      PutSame(ms[1..], k, v);
    }
  }

  /** A second assignment to the same key overwrites the first. */
  lemma {:induction false} PutPut(ms: seq<Member>, k: string, v: Json, w: Json)
    ensures Put(Put(ms, k, v), k, w) == Put(ms, k, w)
  {
    if |ms| > 0 && ms[0].key != k {
      PutPut(ms[1..], k, v, w);
    }
  }

  /** Assignments to two different keys commute once the first key exists. */
  lemma {:induction false} PutCommute(ms: seq<Member>, k1: string, a: Json, k2: string, b: Json)
    requires k1 != k2 && k1 in KeySet(ms)
    ensures Put(Put(ms, k1, a), k2, b) == Put(Put(ms, k2, b), k1, a)
  {
    assert ms == [ms[0]] + ms[1..];
    if ms[0].key == k1 {
    } else if ms[0].key == k2 {
      PutPut(ms[1..], k1, a, a);
      assert k1 in KeySet(ms[1..]);
      PutKeys(ms[1..], k1, a);
    } else {
      assert k1 in KeySet(ms[1..]);
      PutCommute(ms[1..], k1, a, k2, b);
    }
  }

  lemma {:induction false} PutDistinct(ms: seq<Member>, k: string, v: Json)
    requires DistinctKeys(ms)
    ensures DistinctKeys(Put(ms, k, v))
  {
    if |ms| > 0 {
      DistinctTail(ms);
      PutDistinct(ms[1..], k, v);
      if ms[0].key != k {
        PutKeys(ms[1..], k, v);
        var r := Put(ms, k, v);
        forall j | 0 < j < |r|
          ensures r[0].key != r[j].key
        {
          assert r[j] in Put(ms[1..], k, v);
          assert r[j].key in KeySet(Put(ms[1..], k, v));
        }
      }
    }
  }

  /** `d[k] = v` for a new key adds one entry. */
  lemma {:induction false} PutMultisetNew(ms: seq<Member>, k: string, v: Json)
    requires Get(ms, k).None?
    ensures multiset(Put(ms, k, v)) == multiset(ms) + multiset{Member(k, v)}
  {
    if |ms| > 0 {
      var t := ms[1..];
      assert ms == [ms[0]] + t;
      PutMultisetNew(t, k, v);
      assert Put(ms, k, v) == [ms[0]] + Put(t, k, v);
    }
  }

  lemma {:induction false} GetIn(ms: seq<Member>, k: string)
    requires Get(ms, k).Some?
    ensures Member(k, Get(ms, k).value) in ms
  {
    if ms[0].key != k {
      GetIn(ms[1..], k);
    }
  }

  /** `d[k] = v` for an existing key trades the old entry for the new one. */
  lemma {:induction false} PutMultisetExisting(ms: seq<Member>, k: string, v: Json)
    requires Get(ms, k).Some?
    ensures multiset(Put(ms, k, v)) == multiset(ms) - multiset{Member(k, Get(ms, k).value)} + multiset{Member(k, v)}
  {
    var t := ms[1..];
    assert ms == [ms[0]] + t;
    if ms[0].key == k {
      assert Put(ms, k, v) == [Member(k, v)] + t;
    } else {
      var m := Member(k, Get(t, k).value);
      PutMultisetExisting(t, k, v);
      assert Put(ms, k, v) == [ms[0]] + Put(t, k, v);
      GetIn(t, k);
      assert m in multiset(t);
    }
  }

  // ---------------------------------------------------------------------------
  // Removal

  lemma {:induction false} GetWithout(ms: seq<Member>, ks: set<string>, k: string)
    ensures Get(Without(ms, ks), k) == if k in ks then None else Get(ms, k)
  {
    if |ms| > 0 {
      GetWithout(ms[1..], ks, k);
    }
  }

  lemma WithoutKeys(ms: seq<Member>, ks: set<string>)
    ensures KeySet(Without(ms, ks)) == KeySet(ms) - ks
    ensures forall m :: multiset(Without(ms, ks))[m] == if m.key in ks then 0 else multiset(ms)[m]
  {
    WithoutKeySet(ms, ks);
    WithoutCount(ms, ks);
  }

  lemma {:induction false} WithoutKeySet(ms: seq<Member>, ks: set<string>)
    ensures KeySet(Without(ms, ks)) == KeySet(ms) - ks
  {
    if |ms| > 0 {
      WithoutKeySet(ms[1..], ks);
      assert ms == [ms[0]] + ms[1..];
      assert KeySet(ms) == {ms[0].key} + KeySet(ms[1..]);
      if ms[0].key !in ks {
        assert KeySet(Without(ms, ks)) == {ms[0].key} + KeySet(Without(ms[1..], ks));
      }
    }
  }

  lemma {:induction false} WithoutCount(ms: seq<Member>, ks: set<string>)
    ensures forall m :: multiset(Without(ms, ks))[m] == if m.key in ks then 0 else multiset(ms)[m]
  {
    if |ms| > 0 {
      WithoutCount(ms[1..], ks);
      assert ms == [ms[0]] + ms[1..];
      assert multiset(ms) == multiset{ms[0]} + multiset(ms[1..]);
    }
  }

  /** Removing keys that are not there changes nothing. */
  lemma {:induction false} WithoutAbsent(ms: seq<Member>, ks: set<string>)
    requires KeySet(ms) !! ks
    ensures Without(ms, ks) == ms
  {
    if |ms| > 0 {
      assert ms[0].key in KeySet(ms);
      assert KeySet(ms[1..]) <= KeySet(ms) by {
        forall x | x in KeySet(ms[1..]) ensures x in KeySet(ms) {
          var m :| m in ms[1..] && m.key == x;
          assert m in ms;
        }
      }
      WithoutAbsent(ms[1..], ks);
    }
  }

  /** Removal forgets an earlier assignment to a removed key, and commutes
      with an assignment to a kept one. */
  lemma {:induction false} WithoutPut(ms: seq<Member>, ks: set<string>, k: string, v: Json)
    ensures k in ks ==> Without(Put(ms, k, v), ks) == Without(ms, ks)
    ensures k !in ks ==> Without(Put(ms, k, v), ks) == Put(Without(ms, ks), k, v)
  {
    if |ms| == 0 {
      assert Without([Member(k, v)], ks) == if k in ks then [] else [Member(k, v)];
    } else if ms[0].key == k {
      assert Put(ms, k, v) == [Member(k, v)] + ms[1..];
      assert Without(Put(ms, k, v), ks) == if k in ks then Without(ms[1..], ks) else [Member(k, v)] + Without(ms[1..], ks);
    } else {
      WithoutPut(ms[1..], ks, k, v);
      assert Put(ms, k, v) == [ms[0]] + Put(ms[1..], k, v);
    }
  }

  /** Removing some keys and then a superset of them is removing the superset. */
  lemma {:induction false} WithoutTwice(ms: seq<Member>, a: set<string>, b: set<string>)
    requires a <= b
    ensures Without(Without(ms, a), b) == Without(ms, b)
  {
    if |ms| > 0 {
      WithoutTwice(ms[1..], a, b);
    }
  }

  lemma {:induction false} WithoutDistinct(ms: seq<Member>, ks: set<string>)
    requires DistinctKeys(ms)
    ensures DistinctKeys(Without(ms, ks))
  {
    if |ms| > 0 {
      DistinctTail(ms);
      WithoutDistinct(ms[1..], ks);
      if ms[0].key !in ks {
        WithoutKeys(ms[1..], ks);
        var r := Without(ms, ks);
        forall j | 0 < j < |r|
          ensures r[0].key != r[j].key
        {
          assert r[j] in Without(ms[1..], ks);
          assert r[j].key in KeySet(Without(ms[1..], ks));
        }
      }
    }
  }

  // ---------------------------------------------------------------------------
  // Reordered dicts

  lemma {:induction false} GetPermutationSome(ms: seq<Member>, ns: seq<Member>, k: string)
    requires DistinctKeys(ms) && DistinctKeys(ns) && multiset(ms) == multiset(ns)
    ensures Get(ms, k).Some? ==> Get(ns, k) == Get(ms, k)
  {
    GetPresent(ms, k);
    if Get(ms, k).Some? {
      var v := Get(ms, k).value;
      GetMember(ns, k, v);
      assert Member(k, v) in multiset(ns);
    }
  }

  /** Lookups do not see the order of a dict's entries. */
  lemma {:induction false} GetPermutation(ms: seq<Member>, ns: seq<Member>, k: string)
    requires DistinctKeys(ms) && DistinctKeys(ns) && multiset(ms) == multiset(ns)
    ensures Get(ms, k) == Get(ns, k)
  {
    GetPermutationSome(ms, ns, k);
    GetPermutationSome(ns, ms, k);
  }

  /** Removing keys from two orderings of one dict leaves two orderings of one dict. */
  lemma WithoutPermutation(ms: seq<Member>, ns: seq<Member>, ks: set<string>)
    requires multiset(ms) == multiset(ns)
    ensures multiset(Without(ms, ks)) == multiset(Without(ns, ks))
  {
    WithoutKeys(ms, ks);
    WithoutKeys(ns, ks);
    forall m
      ensures multiset(Without(ms, ks))[m] == multiset(Without(ns, ks))[m]
    {
    }
  }

  /** Assigning one key in two orderings of one dict leaves two orderings of one dict. */
  lemma PutPermutation(ms: seq<Member>, ns: seq<Member>, k: string, v: Json)
    requires DistinctKeys(ms) && DistinctKeys(ns) && multiset(ms) == multiset(ns)
    ensures multiset(Put(ms, k, v)) == multiset(Put(ns, k, v))
  {
    GetPermutation(ms, ns, k);
    if Get(ms, k).Some? {
      PutMultisetExisting(ms, k, v);
      PutMultisetExisting(ns, k, v);
    } else {
      PutMultisetNew(ms, k, v);
      PutMultisetNew(ns, k, v);
    }
  }
}

=== FILE: keyorder.dfy ===
/** Key order at every depth of an item.

    `get_item_hash` serialises with `sort_keys=True` (bw.py:126-127), so the
    order of the keys inside any nested dict never reaches the text that is
    hashed, except where `get_clean_item` has already used that order: the
    three list sorts (bw.py:97-118) compare whole entries only through their
    sort keys, and those keys read single fields of each entry. When those
    fields are plain values (not lists or dicts), normalising an entry does
    not change its sort key, and the digest sees only the normal form of the
    item. */
module KeyOrder {
  import opened JsonValue
  import opened JsonOrder
  import opened StableSort
  import opened JsonNormal
  import opened Canon
  import opened Digest

  /** A string, number, boolean or null. */
  predicate Flat(j: Json) {
    !j.Arr? && !j.Obj?
  }

  /** The fields the bw.py sort key of a `kind` entry reads are flat. */
  predicate EntryReady(kind: ListKind, x: Json) {
    match kind
    case Uris => Flat(Field(x, "uri")) && Flat(Field(x, "match"))
    case Fido2Credentials => Flat(Field(x, "credentialId"))
    case Fields => Flat(Field(x, "name")) && Flat(Field(x, "value")) && Flat(Field(x, "type"))
  }

  /** Every entry of the list under `k`, if there is one, is ready. */
  predicate ListReady(ms: seq<Member>, k: string, kind: ListKind) {
    forall x :: Get(ms, k).Some? && Get(ms, k).value.Arr? && x in Get(ms, k).value.items ==> EntryReady(kind, x)
  }

  predicate LoginReady(l: seq<Member>) {
    DistinctKeys(l) && ListReady(l, "uris", Uris) && ListReady(l, "fido2Credentials", Fido2Credentials)
  }

  /** A dict item whose `login` is a dict and whose sorted lists have flat
      sort-key fields. */
  predicate ItemReady(ms: seq<Member>) {
    DistinctKeys(ms) && ListReady(ms, "fields", Fields) &&
    (HoldsLogin(ms) ==> LoginReady(Get(ms, "login").value.members))
  }

  // ---------------------------------------------------------------------------
  // One entry

  /** Normalising a ready entry changes neither its bw.py sort key nor its
      readiness. */
  lemma ListKeyNormalize(kind: ListKind, x: Json)
    requires EntryReady(kind, x)
    ensures ListKey(kind, Normalize(x)) == ListKey(kind, x)
    ensures EntryReady(kind, Normalize(x))
  {
    match kind
    case Uris =>
      FlatFieldNormalize(x, "uri");
      FlatFieldNormalize(x, "match");
    case Fido2Credentials =>
      FlatFieldNormalize(x, "credentialId");
    case Fields =>
      FlatFieldNormalize(x, "name");
      FlatFieldNormalize(x, "value");
      FlatFieldNormalize(x, "type");
  }

  lemma FlatFieldNormalize(x: Json, k: string)
    requires Flat(Field(x, k))
    ensures Field(Normalize(x), k) == Field(x, k)
  {
    FieldNormalize(x, k);
    NormalizeShape(Field(x, k));
  }

  // ---------------------------------------------------------------------------
  // Sorting a normalised list

  lemma {:induction false} InsertNormalizeItems(key: Json -> Json, x: Json, ys: seq<Json>)
    requires key(Normalize(x)) == key(x)
    requires forall y :: y in ys ==> key(Normalize(y)) == key(y)
    ensures NormalizeItems(Insert(key, x, ys)) == Insert(key, Normalize(x), NormalizeItems(ys))
  {
    NormalizeItemsAt(ys);
    if |ys| == 0 || Cmp(key(x), key(ys[0])) <= 0 {
      var r := [x] + ys;
      assert r[0] == x && r[1..] == ys;
    } else {
      assert ys[0] in ys;
      InsertNormalizeItems(key, x, ys[1..]);
      var r := [ys[0]] + Insert(key, x, ys[1..]);
      assert r[0] == ys[0] && r[1..] == Insert(key, x, ys[1..]);
      var n := NormalizeItems(ys);
      assert n[0] == Normalize(ys[0]) && n[1..] == NormalizeItems(ys[1..]);
    }
  }

  /** Normalising the entries and sorting commute when normalising leaves
      every sort key alone. */
  lemma {:induction false} SortNormalizeItems(key: Json -> Json, xs: seq<Json>)
    requires forall x :: x in xs ==> key(Normalize(x)) == key(x)
    ensures NormalizeItems(SortBy(key, xs)) == SortBy(key, NormalizeItems(xs))
  {
    if |xs| > 0 {
      assert xs[0] in xs;
      SortNormalizeItems(key, xs[1..]);
      SortPermutation(key, xs[1..]);
      forall y | y in SortBy(key, xs[1..])
        ensures key(Normalize(y)) == key(y)
      {
        assert y in multiset(xs[1..]);
      }
      InsertNormalizeItems(key, xs[0], SortBy(key, xs[1..]));
      var n := NormalizeItems(xs);
      assert n[0] == Normalize(xs[0]) && n[1..] == NormalizeItems(xs[1..]);
    }
  }

  lemma {:induction false} InsertNormalizeMultiset(key: Json -> Json, x: Json, ys: seq<Json>)
    ensures multiset(NormalizeItems(Insert(key, x, ys))) == multiset(NormalizeItems(ys)) + multiset{Normalize(x)}
  {
    if |ys| == 0 || Cmp(key(x), key(ys[0])) <= 0 {
      var r := [x] + ys;
      assert r[0] == x && r[1..] == ys;
    } else {
      InsertNormalizeMultiset(key, x, ys[1..]);
      var r := [ys[0]] + Insert(key, x, ys[1..]);
      assert r[0] == ys[0] && r[1..] == Insert(key, x, ys[1..]);
      var n := NormalizeItems(ys);
      assert n == [Normalize(ys[0])] + NormalizeItems(ys[1..]);
    }
  }

  /** The normalised entries of a sorted list are those of the input. */
  lemma {:induction false} SortNormalizeMultiset(key: Json -> Json, xs: seq<Json>)
    ensures multiset(NormalizeItems(SortBy(key, xs))) == multiset(NormalizeItems(xs))
  {
    if |xs| > 0 {
      SortNormalizeMultiset(key, xs[1..]);
      InsertNormalizeMultiset(key, xs[0], SortBy(key, xs[1..]));
      var n := NormalizeItems(xs);
      assert n == [Normalize(xs[0])] + NormalizeItems(xs[1..]);
    }
  }

  /** A triple that sorts no later than another still does so without its
      last component. */
  lemma PrefixCmp(a: Json, b: Json, c: Json, a': Json, b': Json, c': Json)
    requires Cmp(Arr([a, b, c]), Arr([a', b', c'])) <= 0
    ensures Cmp(Arr([a, b]), Arr([a', b'])) <= 0
  {
    assert Cmp(Arr([a, b, c]), Arr([a', b', c'])) == CmpSeq([a, b, c], [a', b', c']);
    assert Cmp(Arr([a, b]), Arr([a', b'])) == CmpSeq([a, b], [a', b']);
    assert [a, b, c][1..] == [b, c] && [a', b', c'][1..] == [b', c'];
    assert [a, b][1..] == [b] && [a', b'][1..] == [b'];
    if Cmp(a, a') == 0 {
      assert [b, c][1..] == [c] && [b', c'][1..] == [c'];
      assert [b][1..] == [] && [b'][1..] == [];
      assert CmpSeq([a, b, c], [a', b', c']) == CmpSeq([b, c], [b', c']);
      assert CmpSeq([a, b], [a', b']) == CmpSeq([b], [b']);
      assert CmpSeq([b, c], [b', c']) == if Cmp(b, b') != 0 then Cmp(b, b') else CmpSeq([c], [c']);
      assert CmpSeq([b], [b']) == if Cmp(b, b') != 0 then Cmp(b, b') else CmpSeq([], []);
    }
  }

  /** The order the corrected tie-break leaves normalised entries in: bw.py's
      key, then the normal form. */
  function TieKey(kind: ListKind): Json -> Json {
    u => Arr([ListKey(kind, u), u])
  }

  lemma NormalSortedTie(kind: ListKind, zs: seq<Json>)
    requires forall z :: z in zs ==> EntryReady(kind, z)
    ensures Sorted(TieKey(kind), NormalizeItems(SortList(ContentTiebreak, kind, zs)))
  {
    var key := KeyFn(ContentTiebreak, kind);
    var s := SortList(ContentTiebreak, kind, zs);
    var b := NormalizeItems(s);
    SortSorted(key, zs);
    SortPermutation(key, zs);
    NormalizeItemsAt(s);
    forall i, j | 0 <= i < j < |b|
      ensures Cmp(TieKey(kind)(b[i]), TieKey(kind)(b[j])) <= 0
    {
      assert s[i] in multiset(zs) && s[j] in multiset(zs);
      ListKeyNormalize(kind, s[i]);
      ListKeyNormalize(kind, s[j]);
      assert Cmp(key(s[i]), key(s[j])) <= 0;
      PrefixCmp(ListKey(kind, s[i]), Normalize(s[i]), s[i], ListKey(kind, s[j]), Normalize(s[j]), s[j]);
    }
  }

  /** Sorting a list of ready entries after normalising them gives, once
      normalised, what sorting the entries as written gives: under either
      policy the normalised canonical list depends only on the normalised
      entries. */
  lemma {:induction false} SortListNormalize(policy: Policy, kind: ListKind, xs: seq<Json>)
    requires forall x :: x in xs ==> EntryReady(kind, x)
    ensures NormalizeItems(SortList(policy, kind, NormalizeItems(xs))) == NormalizeItems(SortList(policy, kind, xs))
  {
    var key := KeyFn(policy, kind);
    var n := NormalizeItems(xs);
    NormalizeItemsAt(xs);
    forall y | y in n
      ensures y == Normalize(y) && EntryReady(kind, y)
    {
      var i :| 0 <= i < |n| && n[i] == y;
      NormalizeTwice(xs[i]);
      ListKeyNormalize(kind, xs[i]);
    }
    NormalizeItemsTwice(xs);
    match policy
    case AsWritten =>
      forall x | x in xs
        ensures key(Normalize(x)) == key(x)
      {
        ListKeyNormalize(kind, x);
      }
      SortNormalizeItems(key, xs);
      SortNormalizeItems(key, n);
    case ContentTiebreak =>
      var a := NormalizeItems(SortList(policy, kind, n));
      var b := NormalizeItems(SortList(policy, kind, xs));
      NormalSortedTie(kind, n);
      NormalSortedTie(kind, xs);
      SortNormalizeMultiset(key, n);
      SortNormalizeMultiset(key, xs);
      forall i, j | 0 <= i < |a| && 0 <= j < |a| && TieKey(kind)(a[i]) == TieKey(kind)(a[j])
        ensures a[i] == a[j]
      {
        assert TieKey(kind)(a[i]).items[1] == a[i];
      }
      SortedUnique(TieKey(kind), a, b);
  }

  // ---------------------------------------------------------------------------
  // One sorted entry of a dict

  /** `b` is `a` with normalised values, as far as the digest and the list
      under `k` go; sorting that list keeps the two that way. */
  lemma SortEntryNormalize(a: seq<Member>, b: seq<Member>, k: string, kind: ListKind, policy: Policy)
    requires NormalizeMembers(a) == NormalizeMembers(b)
    requires Get(b, k) == NormalizeOpt(Get(a, k))
    requires ListReady(a, k, kind)
    ensures NormalizeMembers(SortEntry(b, k, kind, policy)) == NormalizeMembers(SortEntry(a, k, kind, policy))
  {
    if Get(a, k).Some? {
      NormalizeShape(Get(a, k).value);
    }
    if HoldsList(a, k) {
      var xs := Get(a, k).value.items;
      PutNormalizeMembers(a, k, Arr(SortList(policy, kind, xs)));
      PutNormalizeMembers(b, k, Arr(SortList(policy, kind, NormalizeItems(xs))));
      SortListNormalize(policy, kind, xs);
    }
  }

  lemma {:induction false} SortEntryPermutation(a: seq<Member>, b: seq<Member>, k: string, kind: ListKind, policy: Policy)
    requires DistinctKeys(a) && DistinctKeys(b) && multiset(a) == multiset(b)
    ensures multiset(SortEntry(a, k, kind, policy)) == multiset(SortEntry(b, k, kind, policy))
    ensures DistinctKeys(SortEntry(a, k, kind, policy)) && DistinctKeys(SortEntry(b, k, kind, policy))
  {
    GetPermutation(a, b, k);
    if HoldsList(a, k) {
      PutPermutation(a, b, k, Arr(SortList(policy, kind, Get(a, k).value.items)));
    }
    SortEntryShape(a, k, kind, policy);
    SortEntryShape(b, k, kind, policy);
  }

  /** Normalising the values of a `login` dict in place keeps the normal
      form of its canonical form. */
  lemma CleanLoginNormalizeValues(l: seq<Member>, policy: Policy)
    requires LoginReady(l)
    ensures NormalizeMembers(CleanLogin(NormalizeMembers(l), policy)) == NormalizeMembers(CleanLogin(l, policy))
  {
    var n := NormalizeMembers(l);
    var u := SortEntry(l, "uris", Uris, policy);
    var u' := SortEntry(n, "uris", Uris, policy);
    NormalizeMembersTwice(l);
    GetNormalizeMembers(l, "uris");
    SortEntryNormalize(l, n, "uris", Uris, policy);
    SortEntryGet(l, "uris", Uris, policy, "fido2Credentials");
    SortEntryGet(n, "uris", Uris, policy, "fido2Credentials");
    GetNormalizeMembers(l, "fido2Credentials");
    SortEntryNormalize(u, u', "fido2Credentials", Fido2Credentials, policy);
  }

  /** Two orderings of one `login` dict have canonical forms with one normal
      form. */
  lemma CleanLoginKeyOrder(n: seq<Member>, s: seq<Member>, policy: Policy)
    requires DistinctKeys(n) && DistinctKeys(s) && multiset(n) == multiset(s)
    ensures Normalize(Obj(CleanLogin(n, policy))) == Normalize(Obj(CleanLogin(s, policy)))
  {
    SortEntryPermutation(n, s, "uris", Uris, policy);
    SortEntryPermutation(SortEntry(n, "uris", Uris, policy), SortEntry(s, "uris", Uris, policy),
      "fido2Credentials", Fido2Credentials, policy);
    NormalizeKeyOrder(CleanLogin(n, policy), CleanLogin(s, policy));
  }

  /** The `login` dict may be rewritten in its normal form, keys sorted at
      every depth, without changing the normal form of its canonical form. */
  lemma CleanLoginNormalize(l: seq<Member>, policy: Policy)
    requires LoginReady(l)
    ensures Normalize(Obj(CleanLogin(Normalize(Obj(l)).members, policy))) == Normalize(Obj(CleanLogin(l, policy)))
  {
    var n := NormalizeMembers(l);
    CleanLoginNormalizeValues(l, policy);
    SortPermutation(MemberKey, n);
    NormalizeMembersDistinct(l);
    SortDistinct(n);
    CleanLoginKeyOrder(n, SortBy(MemberKey, n), policy);
  }

  // ---------------------------------------------------------------------------
  // The whole item

  /** Rewriting every value of an item in its normal form leaves the digest
      alone. */
  lemma ItemDigestNormalizeValues(ms: seq<Member>, policy: Policy)
    requires ItemReady(ms)
    ensures ItemDigest(NormalizeMembers(ms), policy) == ItemDigest(ms, policy)
  {
    var w := Without(ms, RemovedKeys);
    var w' := Without(NormalizeMembers(ms), RemovedKeys);
    WithoutNormalizeMembers(ms, RemovedKeys);
    NormalizeMembersTwice(w);
    GetWithout(ms, RemovedKeys, "login");
    GetNormalizeMembers(w, "login");
    if Get(w, "login").Some? {
      NormalizeShape(Get(w, "login").value);
    }
    var f, f' := FixLogin(w, policy), FixLogin(w', policy);
    if HoldsLogin(w) {
      var l := Get(w, "login").value.members;
      PutNormalizeMembers(w, "login", Obj(CleanLogin(l, policy)));
      PutNormalizeMembers(w', "login", Obj(CleanLogin(Normalize(Obj(l)).members, policy)));
      CleanLoginNormalize(l, policy);
    }
    assert NormalizeMembers(f') == NormalizeMembers(f);
    FixLoginFields(ms, policy);
    FixLoginFields(NormalizeMembers(ms), policy);
    GetNormalizeMembers(ms, "fields");
    SortEntryNormalize(f, f', "fields", Fields, policy);
  }

  /** Two items whose kept keys and values agree up to the order of the keys
      in every dict, at any depth, get the same digest under either policy. */
  lemma {:induction false} ItemDigestDeepKeyOrder(ms: seq<Member>, ns: seq<Member>, policy: Policy)
    requires ItemReady(ms) && ItemReady(ns)
    requires Normalize(Obj(Without(ms, RemovedKeys))) == Normalize(Obj(Without(ns, RemovedKeys)))
    ensures ItemDigest(ms, policy) == ItemDigest(ns, policy)
  {
    var w1, w2 := Without(ms, RemovedKeys), Without(ns, RemovedKeys);
    WithoutReady(ms);
    WithoutReady(ns);
    ItemDigestNormalizeValues(w1, policy);
    ItemDigestNormalizeValues(w2, policy);
    SortPermutation(MemberKey, NormalizeMembers(w1));
    SortPermutation(MemberKey, NormalizeMembers(w2));
    NormalizeMembersDistinct(w1);
    NormalizeMembersDistinct(w2);
    ItemDigestKeyOrder(NormalizeMembers(w1), NormalizeMembers(w2), policy);
  }

  /** Dropping the removed keys first keeps an item ready and does not change
      its canonical form. */
  lemma WithoutReady(ms: seq<Member>)
    requires ItemReady(ms)
    ensures ItemReady(Without(ms, RemovedKeys))
    ensures forall policy :: Clean(Without(ms, RemovedKeys), policy) == Clean(ms, policy)
  {
    WithoutDistinct(ms, RemovedKeys);
    GetWithout(ms, RemovedKeys, "fields");
    GetWithout(ms, RemovedKeys, "login");
    WithoutTwice(ms, RemovedKeys, RemovedKeys);
  }
}

=== FILE: laws.dfy ===
/** What a matching run guarantees, stated against reference definitions
    that do not mention the index maps: the index holds exactly the
    destination ids per digest and the destination items per name; no
    destination id is paired more often than it occurs in the destination
    export; every source item with an id is either paired or counted as
    unmatched; pairs come out in source order; at most
    `DetailedDiagnosticLimit` diagnostics are produced; and two exports whose
    items agree position by position in digest pair up position by position,
    duplicates included. */
module MatchLaws {
  import opened JsonValue
  import opened Canon
  import opened Digest
  import opened Matcher

  function SourceIds(ps: seq<Pair>): seq<Id> {
    if |ps| == 0 then [] else SourceIds(ps[..|ps| - 1]) + [ps[|ps| - 1].source]
  }

  function DestIds(ps: seq<Pair>): seq<Id> {
    if |ps| == 0 then [] else DestIds(ps[..|ps| - 1]) + [ps[|ps| - 1].dest]
  }

  /** `a` is `b` with some entries deleted. */
  predicate Subsequence(a: seq<Id>, b: seq<Id>)
    decreases |b|
  {
    if |b| == 0 then |a| == 0
    else
      Subsequence(a, b[..|b| - 1]) ||
      (|a| > 0 && a[|a| - 1] == b[|b| - 1] && Subsequence(a[..|a| - 1], b[..|b| - 1]))
  }

  predicate Distinct(s: seq<Id>) {
    forall i, j :: 0 <= i < j < |s| ==> s[i] != s[j]
  }

  function Min(a: nat, b: nat): nat {
    if a < b then a else b
  }

  /** The destination ids still unclaimed, over all buckets. */
  ghost function Total(m: map<Json, seq<Id>>): multiset<Id>
    decreases |m.Keys|
  {
    if |m.Keys| == 0 then multiset{}
    else
      var k :| k in m.Keys;
      multiset(m[k]) + Total(m - {k})
  }

  // ---------------------------------------------------------------------------
  // The index

  /** `dest_map` sends each digest to the ids of the destination items with
      that digest, in export order, and holds no other digest. */
  lemma {:induction false} BuildIndexBuckets(digest: Json -> Json, dst: seq<Json>)
    ensures forall h :: Lookup(BuildIndex(digest, dst).buckets, h) == IdsWithDigest(digest, dst, h)
    ensures forall h :: h in BuildIndex(digest, dst).buckets <==> |IdsWithDigest(digest, dst, h)| > 0
  {
    if |dst| > 0 {
      BuildIndexBuckets(digest, dst[..|dst| - 1]);
    }
  }

  /** `dest_name_map` sends each truthy name to the destination items with an
      id and that name, in export order, and holds no other name. */
  lemma {:induction false} BuildIndexNames(digest: Json -> Json, dst: seq<Json>)
    ensures forall n :: Lookup(BuildIndex(digest, dst).byName, n) == ItemsNamed(dst, n)
    ensures forall n :: n in BuildIndex(digest, dst).byName <==> |ItemsNamed(dst, n)| > 0
  {
    if |dst| > 0 {
      BuildIndexNames(digest, dst[..|dst| - 1]);
    }
  }

  // ---------------------------------------------------------------------------
  // Conservation of destination ids

  lemma {:induction false} TotalRemove(m: map<Json, seq<Id>>, k: Json)
    requires k in m
    ensures Total(m) == multiset(m[k]) + Total(m - {k})
    decreases |m.Keys|
  {
    assert k in m.Keys;
    var j :| j in m.Keys && Total(m) == multiset(m[j]) + Total(m - {j});
    if j != k {
      assert (m - {j}).Keys == m.Keys - {j} && (m - {k}).Keys == m.Keys - {k};
      TotalRemove(m - {j}, k);
      TotalRemove(m - {k}, j);
      assert m - {j} - {k} == m - {k} - {j};
    }
  }

  lemma MultisetCancel(a: multiset<Id>, b: multiset<Id>, c: multiset<Id>)
    requires a + c == b + c
    ensures a == b
  {
    forall e
      ensures a[e] == b[e]
    {
      assert (a + c)[e] == (b + c)[e];
    }
  }

  /** Replacing one bucket changes the total by exactly that bucket. */
  lemma TotalUpdate(m: map<Json, seq<Id>>, k: Json, v: seq<Id>)
    ensures Total(m[k := v]) + multiset(Lookup(m, k)) == Total(m) + multiset(v)
  {
    TotalRemove(m[k := v], k);
    assert m[k := v] - {k} == m - {k};
    if k in m {
      TotalRemove(m, k);
    } else {
      assert m - {k} == m;
    }
  }

  /** The index holds every destination id exactly as often as the export does. */
  lemma {:induction false} TotalIndex(digest: Json -> Json, dst: seq<Json>)
    ensures Total(BuildIndex(digest, dst).buckets) == multiset(IdsOf(dst))
  {
    if |dst| > 0 {
      var prev := BuildIndex(digest, dst[..|dst| - 1]);
      var x := dst[|dst| - 1];
      TotalIndex(digest, dst[..|dst| - 1]);
      if HasId(x) {
        var h := digest(x);
        var b := Lookup(prev.buckets, h);
        assert BuildIndex(digest, dst).buckets == prev.buckets[h := b + [IdOf(x)]];
        assert IdsOf(dst) == IdsOf(dst[..|dst| - 1]) + [IdOf(x)];
        TotalUpdate(prev.buckets, h, b + [IdOf(x)]);
        assert multiset(b + [IdOf(x)]) == multiset(b) + multiset{IdOf(x)};
        MultisetCancel(Total(BuildIndex(digest, dst).buckets), Total(prev.buckets) + multiset{IdOf(x)}, multiset(b));
      } else {
        assert BuildIndex(digest, dst).buckets == prev.buckets;
        assert IdsOf(dst) == IdsOf(dst[..|dst| - 1]);
      }
    }
  }

  lemma DestIdsSnoc(ps: seq<Pair>, p: Pair)
    ensures DestIds(ps + [p]) == DestIds(ps) + [p.dest]
    ensures SourceIds(ps + [p]) == SourceIds(ps) + [p.source]
  {
    assert (ps + [p])[..|ps|] == ps;
  }

  /** Taking one id out of a bucket takes it out of the total. */
  lemma BucketTake(m: map<Json, seq<Id>>, k: Json, v: seq<Id>, x: Id)
    requires k in m && multiset(m[k]) == multiset(v) + multiset{x}
    ensures Total(m[k := v]) + multiset{x} == Total(m)
  {
    TotalUpdate(m, k, v);
    MultisetCancel(Total(m[k := v]) + multiset{x}, Total(m), multiset(v));
  }

  lemma ExactConserves(s: State, h: Json, sid: Id)
    requires h in s.buckets && |s.buckets[h]| > 0
    ensures var t := s.(buckets := s.buckets[h := s.buckets[h][1..]], pairs := s.pairs + [Pair(sid, s.buckets[h][0])]);
      Total(t.buckets) + multiset(DestIds(t.pairs)) == Total(s.buckets) + multiset(DestIds(s.pairs))
  {
    var b := s.buckets[h];
    assert b == [b[0]] + b[1..];
    BucketTake(s.buckets, h, b[1..], b[0]);
    DestIdsSnoc(s.pairs, Pair(sid, b[0]));
  }

  lemma RemoveConserves(s: State, dh: Json, did: Id, sid: Id)
    requires dh in s.buckets && did in s.buckets[dh]
    ensures var t := s.(buckets := s.buckets[dh := RemoveFirst(s.buckets[dh], did)], pairs := s.pairs + [Pair(sid, did)]);
      Total(t.buckets) + multiset(DestIds(t.pairs)) == Total(s.buckets) + multiset(DestIds(s.pairs))
  {
    BucketTake(s.buckets, dh, RemoveFirst(s.buckets[dh], did), did);
    DestIdsSnoc(s.pairs, Pair(sid, did));
  }

  /** A step moves at most one id from the buckets into the pairs. */
  lemma {:induction false} StepConserves(digest: Json -> Json, byName: map<Json, seq<Json>>, s: State, item: Json)
    ensures var t := Step(digest, byName, s, item);
      Total(t.buckets) + multiset(DestIds(t.pairs)) == Total(s.buckets) + multiset(DestIds(s.pairs))
  {
    if HasId(item) {
      var h, sid := digest(item), IdOf(item);
      if h in s.buckets && |s.buckets[h]| > 0 {
        ExactConserves(s, h, sid);
      } else {
        var name := NameOf(item);
        var cands := if Truthy(name) then Lookup(byName, name) else [];
        var avail := Available(digest, s.buckets, cands);
        if |avail| == 1 {
          RemoveConserves(s, digest(avail[0]), IdOf(avail[0]), sid);
        }
      }
    }
  }

  lemma {:induction false} RunConserves(digest: Json -> Json, byName: map<Json, seq<Json>>, init: State, src: seq<Json>)
    ensures var t := Run(digest, byName, init, src);
      Total(t.buckets) + multiset(DestIds(t.pairs)) == Total(init.buckets) + multiset(DestIds(init.pairs))
  {
    if |src| > 0 {
      RunConserves(digest, byName, init, src[..|src| - 1]);
      StepConserves(digest, byName, Run(digest, byName, init, src[..|src| - 1]), src[|src| - 1]);
    }
  }

  lemma {:induction false} DistinctCount(s: seq<Id>)
    ensures Distinct(s) <==> forall x :: multiset(s)[x] <= 1
  {
    if |s| > 0 {
      var init, last := s[..|s| - 1], s[|s| - 1];
      DistinctCount(init);
      assert s == init + [last];
      if Distinct(s) {
        assert Distinct(init);
        assert last !in init;
      } else {
        var i, j :| 0 <= i < j < |s| && s[i] == s[j];
        if j < |s| - 1 {
          assert !Distinct(init);
          var x :| multiset(init)[x] > 1;
          assert multiset(s)[x] > 1;
        } else {
          assert s[i] in init;
          assert multiset(s)[last] > 1;
        }
      }
    }
  }

  /** No destination id is paired more often than the destination export
      holds it; so with distinct destination ids, no destination is paired
      twice. */
  lemma MatchDestinationsUsedOnce(digest: Json -> Json, srcData: Json, dstData: Json)
    requires MatchBy(digest, srcData, dstData).Matched?
    ensures var dst := ItemsOf(dstData).value;
      var pairs := MatchBy(digest, srcData, dstData).outcome.pairs;
      multiset(DestIds(pairs)) <= multiset(IdsOf(dst)) &&
      (Distinct(IdsOf(dst)) ==> Distinct(DestIds(pairs))) &&
      |pairs| <= |IdsOf(dst)|
  {
    var src, dst := ItemsOf(srcData).value, ItemsOf(dstData).value;
    var ix := BuildIndex(digest, dst);
    var init := State(ix.buckets, [], 0, []);
    var t := Run(digest, ix.byName, init, src);
    assert MatchBy(digest, srcData, dstData).outcome.pairs == t.pairs;
    RunConserves(digest, ix.byName, init, src);
    TotalIndex(digest, dst);
    assert Total(t.buckets) + multiset(DestIds(t.pairs)) == multiset(IdsOf(dst));
    DistinctCount(IdsOf(dst));
    DistinctCount(DestIds(t.pairs));
    DestIdsLength(t.pairs);
    SubMultisetSize(multiset(DestIds(t.pairs)), multiset(IdsOf(dst)));
  }

  lemma {:induction false} DestIdsLength(ps: seq<Pair>)
    ensures |DestIds(ps)| == |ps|
  {
    if |ps| > 0 {
      DestIdsLength(ps[..|ps| - 1]);
    }
  }

  lemma SubMultisetSize(a: multiset<Id>, b: multiset<Id>)
    requires a <= b
    ensures |a| <= |b|
  {
    assert b == a + (b - a);
  }

  // ---------------------------------------------------------------------------
  // Counting and order

  /** One source item with an id is either paired, as the last pair, or
      counted unmatched; an item without one changes nothing. */
  lemma StepEffect(digest: Json -> Json, byName: map<Json, seq<Json>>, s: State, item: Json)
    ensures var t := Step(digest, byName, s, item);
      if !HasId(item) then t == s
      else
        (t.unmatched == s.unmatched && t.diagnostics == s.diagnostics &&
         |t.pairs| == |s.pairs| + 1 && t.pairs[..|s.pairs|] == s.pairs && t.pairs[|s.pairs|].source == IdOf(item)) ||
        (t.unmatched == s.unmatched + 1 && t.pairs == s.pairs && t.buckets == s.buckets)
  {
    if HasId(item) {
      var t := Step(digest, byName, s, item);
      if |t.pairs| > |s.pairs| {
        assert t.pairs[..|s.pairs|] == s.pairs;
      }
    }
  }

  /** Each source item with an id is paired or counted unmatched, never both. */
  lemma {:induction false} RunCounts(digest: Json -> Json, byName: map<Json, seq<Json>>, init: State, src: seq<Json>)
    ensures var t := Run(digest, byName, init, src);
      |t.pairs| + t.unmatched == |init.pairs| + init.unmatched + |IdsOf(src)|
  {
    if |src| > 0 {
      RunCounts(digest, byName, init, src[..|src| - 1]);
    }
  }

  /** The source ids of the pairs appear in the source export, in its order. */
  lemma {:induction false} RunOrder(digest: Json -> Json, byName: map<Json, seq<Json>>, init: State, src: seq<Json>)
    requires init.pairs == []
    ensures Subsequence(SourceIds(Run(digest, byName, init, src).pairs), IdsOf(src))
  {
    if |src| > 0 {
      var prev := Run(digest, byName, init, src[..|src| - 1]);
      var x := src[|src| - 1];
      var t := Step(digest, byName, prev, x);
      RunOrder(digest, byName, init, src[..|src| - 1]);
      StepEffect(digest, byName, prev, x);
      if HasId(x) {
        var ids := IdsOf(src);
        assert ids == IdsOf(src[..|src| - 1]) + [IdOf(x)];
        assert ids[..|ids| - 1] == IdsOf(src[..|src| - 1]);
        if |t.pairs| > |prev.pairs| {
          var p := t.pairs[|t.pairs| - 1];
          assert t.pairs == prev.pairs + [p];
          DestIdsSnoc(prev.pairs, p);
          var a := SourceIds(t.pairs);
          assert a[..|a| - 1] == SourceIds(prev.pairs);
          assert a[|a| - 1] == ids[|ids| - 1];
        } else {
          assert SourceIds(t.pairs) == SourceIds(prev.pairs);
          assert Subsequence(SourceIds(prev.pairs), ids[..|ids| - 1]);
        }
      } else {
        assert IdsOf(src) == IdsOf(src[..|src| - 1]);
      }
    }
  }

  /** Only the first `DetailedDiagnosticLimit` unmatched items are reported in detail. */
  lemma {:induction false} RunDiagnostics(digest: Json -> Json, byName: map<Json, seq<Json>>, init: State, src: seq<Json>)
    requires |init.diagnostics| == Min(init.unmatched, DetailedDiagnosticLimit)
    ensures var t := Run(digest, byName, init, src);
      |t.diagnostics| == Min(t.unmatched, DetailedDiagnosticLimit)
  {
    if |src| > 0 {
      RunDiagnostics(digest, byName, init, src[..|src| - 1]);
    }
  }

  /** The counting, order and diagnostic guarantees of a whole run. */
  lemma MatchAccounts(digest: Json -> Json, srcData: Json, dstData: Json)
    requires MatchBy(digest, srcData, dstData).Matched?
    ensures var src := ItemsOf(srcData).value;
      var o := MatchBy(digest, srcData, dstData).outcome;
      |o.pairs| + o.unmatched == |IdsOf(src)| &&
      Subsequence(SourceIds(o.pairs), IdsOf(src)) &&
      |o.diagnostics| == Min(o.unmatched, DetailedDiagnosticLimit)
  {
    var src, dst := ItemsOf(srcData).value, ItemsOf(dstData).value;
    var ix := BuildIndex(digest, dst);
    var init := State(ix.buckets, [], 0, []);
    RunCounts(digest, ix.byName, init, src);
    RunOrder(digest, ix.byName, init, src);
    RunDiagnostics(digest, ix.byName, init, src);
  }

  /** A wrapped export `{"items": [...]}` matches as its raw list does. */
  lemma MatchWrapped(digest: Json -> Json, ms: seq<Member>, xs: seq<Json>, other: Json)
    requires Field(Obj(ms), "items") == Arr(xs)
    ensures MatchBy(digest, Obj(ms), other) == MatchBy(digest, Arr(xs), other)
    ensures MatchBy(digest, other, Obj(ms)) == MatchBy(digest, other, Arr(xs))
  {
  }

  // ---------------------------------------------------------------------------
  // Exact hits and the name fallback

  /** On a digest hit the first id of the bucket is paired and removed, the
      rest of the bucket keeps its order, and nothing else changes. */
  lemma StepExact(digest: Json -> Json, byName: map<Json, seq<Json>>, s: State, item: Json)
    requires HasId(item) && |Lookup(s.buckets, digest(item))| > 0
    ensures var t := Step(digest, byName, s, item);
      var b := Lookup(s.buckets, digest(item));
      t.pairs == s.pairs + [Pair(IdOf(item), b[0])] &&
      Lookup(t.buckets, digest(item)) == b[1..] &&
      (forall h :: h != digest(item) ==> Lookup(t.buckets, h) == Lookup(s.buckets, h)) &&
      t.unmatched == s.unmatched && t.diagnostics == s.diagnostics
  {
  }

  lemma {:induction false} ItemsNamedMembers(items: seq<Json>, n: Json)
    ensures forall c :: c in ItemsNamed(items, n) ==> c in items && HasId(c) && Truthy(n) && NameOf(c) == n
    ensures !Truthy(n) ==> ItemsNamed(items, n) == []
  {
    if |items| > 0 {
      ItemsNamedMembers(items[..|items| - 1], n);
    }
  }

  /** The fallback looks up exactly the destination items with an `id` and
      the item's name, in destination order, and none for a falsy name. */
  lemma NamedCandidates(digest: Json -> Json, dst: seq<Json>, item: Json)
    ensures var name := NameOf(item);
      (if Truthy(name) then Lookup(BuildIndex(digest, dst).byName, name) else []) == ItemsNamed(dst, name)
  {
    BuildIndexNames(digest, dst);
    ItemsNamedMembers(dst, NameOf(item));
  }

  /** When a source item's digest has no unclaimed destination left, it is
      paired exactly when one same-named destination item is still
      unclaimed, and then with that item; otherwise it is counted unmatched
      and, below the limit, reported with the ids of every same-named
      destination item. */
  lemma {:induction false} StepByName(digest: Json -> Json, dst: seq<Json>, s: State, item: Json)
    requires HasId(item) && |Lookup(s.buckets, digest(item))| == 0
    ensures var t := Step(digest, BuildIndex(digest, dst).byName, s, item);
      var named := ItemsNamed(dst, NameOf(item));
      var avail := Available(digest, s.buckets, named);
      (|avail| == 1 ==>
         avail[0] in dst && NameOf(avail[0]) == NameOf(item) && Live(digest, s.buckets, avail[0]) &&
         t.pairs == s.pairs + [Pair(IdOf(item), IdOf(avail[0]))] && t.unmatched == s.unmatched &&
         t.diagnostics == s.diagnostics &&
         t.buckets == s.buckets[digest(avail[0]) := RemoveFirst(s.buckets[digest(avail[0])], IdOf(avail[0]))]) &&
      (|avail| != 1 ==>
         t.pairs == s.pairs && t.buckets == s.buckets && t.unmatched == s.unmatched + 1 &&
         t.diagnostics == s.diagnostics +
           (if s.unmatched < DetailedDiagnosticLimit then [NoMatch(IdOf(item), NameOf(item), IdsOf(named))] else []))
  {
    NamedCandidates(digest, dst, item);
    ItemsNamedMembers(dst, NameOf(item));
    var avail := Available(digest, s.buckets, ItemsNamed(dst, NameOf(item)));
    if |avail| == 1 {
      assert avail[0] in multiset(ItemsNamed(dst, NameOf(item)));
    }
  }



  // ---------------------------------------------------------------------------
  // First in, first out

  /** The two exports agree item by item: the same items have ids, and
      items at the same position have the same digest. */
  predicate Aligned(digest: Json -> Json, src: seq<Json>, dst: seq<Json>) {
    |src| == |dst| &&
    forall i :: 0 <= i < |src| ==> (HasId(src[i]) <==> HasId(dst[i])) && (HasId(src[i]) ==> digest(src[i]) == digest(dst[i]))
  }

  /** Each source item with an id paired with the destination item at its position. */
  function AlignedPairs(src: seq<Json>, dst: seq<Json>): seq<Pair>
    requires |src| == |dst|
  {
    if |src| == 0 then []
    else
      var x, d := src[|src| - 1], dst[|dst| - 1];
      AlignedPairs(src[..|src| - 1], dst[..|dst| - 1]) + (if HasId(x) then [Pair(IdOf(x), IdOf(d))] else [])
  }

  lemma {:induction false} IdsWithDigestAppend(digest: Json -> Json, a: seq<Json>, b: seq<Json>, h: Json)
    ensures IdsWithDigest(digest, a + b, h) == IdsWithDigest(digest, a, h) + IdsWithDigest(digest, b, h)
  {
    if |b| == 0 {
      assert a + b == a;
    } else {
      assert (a + b)[..|a + b| - 1] == a + b[..|b| - 1];
      IdsWithDigestAppend(digest, a, b[..|b| - 1], h);
    }
  }

  lemma IdsWithDigestCons(digest: Json -> Json, d: Json, rest: seq<Json>, h: Json)
    ensures IdsWithDigest(digest, [d] + rest, h) ==
      (if HasId(d) && digest(d) == h then [IdOf(d)] else []) + IdsWithDigest(digest, rest, h)
  {
    IdsWithDigestAppend(digest, [d], rest, h);
    assert [d][..0] == [];
  }

  /** After `k` aligned source items, each bucket holds the ids of the
      destination items from position `k` on, and the first `k` items are
      paired position by position. */
  lemma {:induction false} RunAlignedPrefix(digest: Json -> Json, byName: map<Json, seq<Json>>, src: seq<Json>, dst: seq<Json>, k: nat)
    requires Aligned(digest, src, dst) && k <= |src|
    ensures var t := Run(digest, byName, State(BuildIndex(digest, dst).buckets, [], 0, []), src[..k]);
      (forall h :: Lookup(t.buckets, h) == IdsWithDigest(digest, dst[k..], h)) &&
      t.pairs == AlignedPairs(src[..k], dst[..k]) && t.unmatched == 0 && t.diagnostics == []
  {
    var init := State(BuildIndex(digest, dst).buckets, [], 0, []);
    if k == 0 {
      BuildIndexBuckets(digest, dst);
      assert dst[0..] == dst;
    } else {
      RunAlignedPrefix(digest, byName, src, dst, k - 1);
      assert src[..k][..k - 1] == src[..k - 1];
      assert dst[..k][..k - 1] == dst[..k - 1];
      var s := Run(digest, byName, init, src[..k - 1]);
      var x, d := src[k - 1], dst[k - 1];
      assert Run(digest, byName, init, src[..k]) == Step(digest, byName, s, x);
      assert dst[k - 1..] == [d] + dst[k..];
      assert (HasId(x) <==> HasId(d)) && (HasId(x) ==> digest(x) == digest(d));
      StepAligned(digest, byName, s, x, d, dst[k..]);
    }
  }

  /** One aligned step: the source item takes the head of the destination
      suffix that is still unclaimed. */
  lemma StepAligned(digest: Json -> Json, byName: map<Json, seq<Json>>, s: State, x: Json, d: Json, rest: seq<Json>)
    requires forall h :: Lookup(s.buckets, h) == IdsWithDigest(digest, [d] + rest, h)
    requires (HasId(x) <==> HasId(d)) && (HasId(x) ==> digest(x) == digest(d))
    ensures var t := Step(digest, byName, s, x);
      (forall h :: Lookup(t.buckets, h) == IdsWithDigest(digest, rest, h)) &&
      t.pairs == s.pairs + (if HasId(x) then [Pair(IdOf(x), IdOf(d))] else []) &&
      t.unmatched == s.unmatched && t.diagnostics == s.diagnostics
  {
    forall h
      ensures IdsWithDigest(digest, [d] + rest, h) ==
        (if HasId(d) && digest(d) == h then [IdOf(d)] else []) + IdsWithDigest(digest, rest, h)
    {
      IdsWithDigestCons(digest, d, rest, h);
    }
    if HasId(x) {
      var h0 := digest(x);
      assert Lookup(s.buckets, h0) == [IdOf(d)] + IdsWithDigest(digest, rest, h0);
    }
  }

  /** Two aligned exports pair up position by position, duplicates included:
      equal items are matched in the order they appear on both sides. */
  lemma {:induction false} MatchAligned(digest: Json -> Json, src: seq<Json>, dst: seq<Json>)
    requires Aligned(digest, src, dst)
    ensures MatchBy(digest, Arr(src), Arr(dst)) == Matched(Outcome(AlignedPairs(src, dst), 0, []))
  {
    RunAlignedPrefix(digest, BuildIndex(digest, dst).byName, src, dst, |src|);
    assert src[..|src|] == src && dst[..|dst|] == dst;
  }

  /** Aligned pairs take every source id and every destination id once, in order. */
  lemma {:induction false} AlignedPairsIds(digest: Json -> Json, src: seq<Json>, dst: seq<Json>)
    requires Aligned(digest, src, dst)
    ensures SourceIds(AlignedPairs(src, dst)) == IdsOf(src)
    ensures DestIds(AlignedPairs(src, dst)) == IdsOf(dst)
  {
    if |src| > 0 {
      var n := |src| - 1;
      assert Aligned(digest, src[..n], dst[..n]) by {
        forall i | 0 <= i < n
          ensures src[..n][i] == src[i] && dst[..n][i] == dst[i]
        {
        }
      }
      AlignedPairsIds(digest, src[..n], dst[..n]);
      var prev := AlignedPairs(src[..n], dst[..n]);
      if HasId(src[n]) {
        assert HasId(dst[n]);
        assert AlignedPairs(src, dst) == prev + [Pair(IdOf(src[n]), IdOf(dst[n]))];
        DestIdsSnoc(prev, Pair(IdOf(src[n]), IdOf(dst[n])));
      } else {
        assert !HasId(dst[n]);
        assert AlignedPairs(src, dst) == prev;
      }
    }
  }

  /** An export matched against itself pairs every item with itself. */
  lemma MatchSelf(digest: Json -> Json, items: seq<Json>)
    ensures MatchBy(digest, Arr(items), Arr(items)).outcome.unmatched == 0
    ensures SourceIds(MatchBy(digest, Arr(items), Arr(items)).outcome.pairs) == IdsOf(items)
    ensures DestIds(MatchBy(digest, Arr(items), Arr(items)).outcome.pairs) == IdsOf(items)
  {
    MatchAligned(digest, items, items);
    AlignedPairsIds(digest, items, items);
  }

  /** Two identical source items and two identical destination items, all
      with one digest, pair first with first and second with second. */
  lemma MatchDuplicatesInOrder(digest: Json -> Json, s1: Json, s2: Json, d1: Json, d2: Json)
    requires HasId(s1) && HasId(s2) && HasId(d1) && HasId(d2)
    requires digest(s1) == digest(s2) == digest(d1) == digest(d2)
    ensures MatchBy(digest, Arr([s1, s2]), Arr([d1, d2])).outcome.pairs ==
      [Pair(IdOf(s1), IdOf(d1)), Pair(IdOf(s2), IdOf(d2))]
  {
    MatchAligned(digest, [s1, s2], [d1, d2]);
    assert [s1, s2][..1] == [s1] && [d1, d2][..1] == [d1];
    assert [s1][..0] == [] && [d1][..0] == [];
    assert AlignedPairs([s1], [d1]) == [Pair(IdOf(s1), IdOf(d1))];
  }
}

=== FILE: loop.dfy ===
/** `action_match` as bw.py writes it: three `for` loops (over the
    destination items, over the source items, and over the same-named
    candidates of an item that missed its digest) updating two dicts in
    place. Each loop is shown to compute the fold of the functional model. */
module MatchLoop {
  import opened JsonValue
  import opened Canon
  import opened Matcher

  /** The candidate filter of bw.py:187-191. */
  method AvailableLoop(digest: Json -> Json, buckets: map<Json, seq<Id>>, cands: seq<Json>) returns (avail: seq<Json>)
    ensures avail == Available(digest, buckets, cands)
  {
    avail := [];
    var k := 0;
    while k < |cands|
      invariant 0 <= k <= |cands|
      invariant avail == Available(digest, buckets, cands[..k])
    {
      var c := cands[k];
      AvailablePrefix(digest, buckets, cands, k);
      if digest(c) in buckets && IdOf(c) in buckets[digest(c)] {
        avail := avail + [c];
      }
      k := k + 1;
    }
    assert cands[..|cands|] == cands;
  }

  /** One more candidate extends the filtered prefix by at most itself. */
  lemma {:induction false} AvailablePrefix(digest: Json -> Json, buckets: map<Json, seq<Id>>, cands: seq<Json>, k: nat)
    requires k < |cands|
    ensures Available(digest, buckets, cands[..k + 1]) ==
      Available(digest, buckets, cands[..k]) + (if Live(digest, buckets, cands[k]) then [cands[k]] else [])
  {
    var ys := cands[..k + 1];
    assert ys[..|ys| - 1] == cands[..k] && ys[|ys| - 1] == cands[k];
  }

  /** One pass of the source loop body (bw.py:175-236). */
  method StepLoop(digest: Json -> Json, byName: map<Json, seq<Json>>, s: State, item: Json) returns (t: State)
    ensures t == Step(digest, byName, s, item)
  {
    if !HasId(item) {
      return s;
    }
    var h, sid := digest(item), IdOf(item);
    if h in s.buckets && |s.buckets[h]| > 0 {
      var did := s.buckets[h][0];
      return s.(buckets := s.buckets[h := s.buckets[h][1..]], pairs := s.pairs + [Pair(sid, did)]);
    }
    var name := NameOf(item);
    var cands: seq<Json> := [];
    if Truthy(name) && name in byName {
      cands := byName[name];
    }
    var avail := AvailableLoop(digest, s.buckets, cands);
    if |avail| == 1 {
      var dh, did := digest(avail[0]), IdOf(avail[0]);
      return s.(buckets := s.buckets[dh := RemoveFirst(s.buckets[dh], did)], pairs := s.pairs + [Pair(sid, did)]);
    }
    var report: seq<Diagnostic> := [];
    if s.unmatched < DetailedDiagnosticLimit {
      report := [NoMatch(sid, name, IdsOf(cands))];
    }
    t := s.(unmatched := s.unmatched + 1, diagnostics := s.diagnostics + report);
  }

  /** The destination loop (bw.py:161-172). */
  method IndexLoop(digest: Json -> Json, dst: seq<Json>) returns (ix: Index)
    ensures ix == BuildIndex(digest, dst)
  {
    var buckets: map<Json, seq<Id>> := map[];
    var byName: map<Json, seq<Json>> := map[];
    var i := 0;
    while i < |dst|
      invariant 0 <= i <= |dst|
      invariant Index(buckets, byName) == BuildIndex(digest, dst[..i])
    {
      assert dst[..i + 1][..i] == dst[..i];
      var x := dst[i];
      if HasId(x) {
        var h := digest(x);
        var ids := if h in buckets then buckets[h] else [];
        buckets := buckets[h := ids + [IdOf(x)]];
        var n := NameOf(x);
        if Truthy(n) {
          var named := if n in byName then byName[n] else [];
          byName := byName[n := named + [x]];
        }
      }
      i := i + 1;
    }
    assert dst[..|dst|] == dst;
    ix := Index(buckets, byName);
  }

  /** The source loop (bw.py:174-236). */
  method SourceLoop(digest: Json -> Json, byName: map<Json, seq<Json>>, init: State, src: seq<Json>) returns (s: State)
    ensures s == Run(digest, byName, init, src)
  {
    s := init;
    var j := 0;
    while j < |src|
      invariant 0 <= j <= |src|
      invariant s == Run(digest, byName, init, src[..j])
    {
      assert src[..j + 1][..j] == src[..j];
      s := StepLoop(digest, byName, s, src[j]);
      j := j + 1;
    }
    assert src[..|src|] == src;
  }

  /** The whole command: shape check, index build, source loop. */
  method MatchByLoop(digest: Json -> Json, srcData: Json, dstData: Json) returns (r: Result)
    ensures r == MatchBy(digest, srcData, dstData)
  {
    var srcItems, dstItems := ItemsOf(srcData), ItemsOf(dstData);
    if srcItems.None? || dstItems.None? {
      return NotAList;
    }
    var ix := IndexLoop(digest, dstItems.value);
    var s := SourceLoop(digest, ix.byName, State(ix.buckets, [], 0, []), srcItems.value);
    r := Matched(Outcome(s.pairs, s.unmatched, s.diagnostics));
  }
}

=== FILE: matcher.dfy ===
/** The matcher `action_match` (bw.py:143-236).

    Given a source and a destination export, it pairs every source item that
    has an `id` with at most one destination item. Destination ids are
    indexed by item digest, and each digest bucket is consumed first in
    first out, so duplicated items pair up in their order of appearance.
    When a source item's digest has no unclaimed destination left, the item
    may still be paired by name, but only when exactly one same-named
    destination item is still unclaimed. Every source item left unpaired
    counts as unmatched; the first `DetailedDiagnosticLimit` of them get a
    detailed diagnostic.

    File reading, the text written to stdout and stderr and the diff shown
    in a diagnostic are not modelled: the outcome is the list of pairs, the
    number of unmatched items and the diagnostics' contents. */
module Matcher {
  import opened JsonValue
  import opened Canon
  import opened Digest

  /** The value under an item's `id` key. */
  type Id = Json

  /** One output line: a source id and the destination id it was paired with. */
  datatype Pair = Pair(source: Id, dest: Id)

  /** A detailed report on an unmatched source item: its id, its name and the
      ids of the destination items that share that name. */
  datatype Diagnostic = NoMatch(source: Id, name: Json, candidates: seq<Id>)

  datatype Outcome = Outcome(pairs: seq<Pair>, unmatched: nat, diagnostics: seq<Diagnostic>)

  /** A run either reaches an outcome or stops because an export does not
      hold a list of items. */
  datatype Result = Matched(outcome: Outcome) | NotAList

  /** Only this many unmatched items get a detailed diagnostic (bw.py:203). */
  const DetailedDiagnosticLimit: nat := 3

  // ---------------------------------------------------------------------------
  // Items

  /** The item list of an export: a raw list, or a dict whose `items` is one. */
  function ItemsOf(data: Json): (r: Option<seq<Json>>)
    ensures r.Some? <==> data.Arr? || (data.Obj? && Field(data, "items").Arr?)
    ensures data.Arr? ==> r == Some(data.items)
    ensures data.Obj? && r.Some? ==> r.value == Field(data, "items").items
  {
    match data
    case Arr(xs) => Some(xs)
    case Obj(ms) => (match Get(ms, "items") case Some(Arr(xs)) => Some(xs) case _ => None)
    case _ => None
  }

  /** `"id" in item` on a dict item. bw.py applies `in` to whatever the
      export holds (bw.py:162, 176); on anything but a dict it either raises
      or goes on to fail at `.copy()`, so only a dict item is matched. */
  predicate HasId(item: Json) {
    item.Obj? && Get(item.members, "id").Some?
  }

  function IdOf(item: Json): Id {
    Field(item, "id")
  }

  function NameOf(item: Json): Json {
    Field(item, "name")
  }

  /** The digest of an item. Only items with an id, which are objects, are
      ever hashed; any other value gets `null`, which no object's digest is. */
  function DigestOf(policy: Policy, item: Json): Json {
    match item
    case Obj(ms) => ItemDigest(ms, policy)
    case _ => Null
  }

  /** `get_item_hash` as the matcher calls it. The matching functions below
      take the digest as a parameter, so what they guarantee holds for any
      digest function. */
  function Hasher(policy: Policy): Json -> Json {
    item => DigestOf(policy, item)
  }

  /** The ids of the items that have one, in order. */
  function IdsOf(items: seq<Json>): seq<Id> {
    if |items| == 0 then []
    else
      var x := items[|items| - 1];
      IdsOf(items[..|items| - 1]) + (if HasId(x) then [IdOf(x)] else [])
  }

  /** The ids of the items with an id and digest `h`, in order. */
  function IdsWithDigest(digest: Json -> Json, items: seq<Json>, h: Json): seq<Id> {
    if |items| == 0 then []
    else
      var x := items[|items| - 1];
      IdsWithDigest(digest, items[..|items| - 1], h) + (if HasId(x) && digest(x) == h then [IdOf(x)] else [])
  }

  /** The items with an id and the truthy name `n`, in order. */
  function ItemsNamed(items: seq<Json>, n: Json): seq<Json> {
    if |items| == 0 then []
    else
      var x := items[|items| - 1];
      ItemsNamed(items[..|items| - 1], n) + (if HasId(x) && Truthy(n) && NameOf(x) == n then [x] else [])
  }

  // ---------------------------------------------------------------------------
  // The destination index (bw.py:157-172)

  /** A map lookup with the empty list for a missing key. */
  function Lookup<V>(m: map<Json, seq<V>>, k: Json): seq<V> {
    if k in m then m[k] else []
  }

  /** `dest_map` (digest to ids) and `dest_name_map` (name to items). */
  datatype Index = Index(buckets: map<Json, seq<Id>>, byName: map<Json, seq<Json>>)

  function AddDest(digest: Json -> Json, ix: Index, item: Json): Index {
    if !HasId(item) then ix
    else
      var h, n := digest(item), NameOf(item);
      Index(ix.buckets[h := Lookup(ix.buckets, h) + [IdOf(item)]],
            if Truthy(n) then ix.byName[n := Lookup(ix.byName, n) + [item]] else ix.byName)
  }

  function BuildIndex(digest: Json -> Json, dst: seq<Json>): Index {
    if |dst| == 0 then Index(map[], map[])
    else AddDest(digest, BuildIndex(digest, dst[..|dst| - 1]), dst[|dst| - 1])
  }

  // ---------------------------------------------------------------------------
  // The source loop (bw.py:174-236)

  /** Matching state: the unclaimed destination ids per digest, the pairs
      made, the unmatched count (`debug_count`) and the diagnostics. */
  datatype State = State(buckets: map<Json, seq<Id>>, pairs: seq<Pair>, unmatched: nat, diagnostics: seq<Diagnostic>)

  /** A candidate is still unclaimed when its id is in its own digest's bucket. */
  predicate Live(digest: Json -> Json, buckets: map<Json, seq<Id>>, c: Json) {
    digest(c) in buckets && IdOf(c) in buckets[digest(c)]
  }

  /** The entries of `xs` that satisfy `p`, in order: a list comprehension
      with a condition. */
  function Keep(p: Json -> bool, xs: seq<Json>): (r: seq<Json>)
    ensures forall i :: 0 <= i < |r| ==> p(r[i])
    ensures forall x :: x in xs && p(x) ==> x in r
    ensures forall x :: multiset(r)[x] == if p(x) then multiset(xs)[x] else 0
  {
    if |xs| == 0 then []
    else
      var x := xs[|xs| - 1];
      assert xs == xs[..|xs| - 1] + [x];
      Keep(p, xs[..|xs| - 1]) + (if p(x) then [x] else [])
  }

  /** The still unclaimed candidates, in order. */
  function Available(digest: Json -> Json, buckets: map<Json, seq<Id>>, cands: seq<Json>): (r: seq<Json>)
    ensures forall i :: 0 <= i < |r| ==> Live(digest, buckets, r[i])
    ensures forall c :: c in cands && Live(digest, buckets, c) ==> c in r
    ensures multiset(r) <= multiset(cands)
    ensures forall c :: multiset(r)[c] == if Live(digest, buckets, c) then multiset(cands)[c] else 0
  {
    Keep(c => Live(digest, buckets, c), cands)
  }

  /** The position of the first occurrence of `x`. */
  function IndexOf(xs: seq<Id>, x: Id): (i: nat)
    requires x in xs
    ensures i < |xs| && xs[i] == x && x !in xs[..i]
  {
    if xs[0] == x then 0
    else
      assert x in xs[1..];
      var j := IndexOf(xs[1..], x);
      assert xs[..j + 1] == [xs[0]] + xs[1..][..j];
      j + 1
  }

  /** `xs.remove(x)`: drops the first occurrence of `x`. */
  function RemoveFirst(xs: seq<Id>, x: Id): (r: seq<Id>)
    ensures x in xs ==> multiset(r) + multiset{x} == multiset(xs) && |r| + 1 == |xs|
    ensures x in xs ==> r == xs[..IndexOf(xs, x)] + xs[IndexOf(xs, x) + 1..]
    ensures x !in xs ==> r == xs
  {
    if x in xs then
      var i := IndexOf(xs, x);
      MultisetRemoveAt(xs, i);
      xs[..i] + xs[i + 1..]
    else xs
  }

  /** One source item (bw.py:175-236). */
  function Step(digest: Json -> Json, byName: map<Json, seq<Json>>, s: State, item: Json): State {
    if !HasId(item) then s
    else
      var h, sid := digest(item), IdOf(item);
      if h in s.buckets && |s.buckets[h]| > 0 then
        s.(buckets := s.buckets[h := s.buckets[h][1..]], pairs := s.pairs + [Pair(sid, s.buckets[h][0])])
      else
        var name := NameOf(item);
        var cands := if Truthy(name) then Lookup(byName, name) else [];
        var avail := Available(digest, s.buckets, cands);
        if |avail| == 1 then
          var dh, did := digest(avail[0]), IdOf(avail[0]);
          s.(buckets := s.buckets[dh := RemoveFirst(s.buckets[dh], did)], pairs := s.pairs + [Pair(sid, did)])
        else
          var report := if s.unmatched < DetailedDiagnosticLimit then [NoMatch(sid, name, IdsOf(cands))] else [];
          s.(unmatched := s.unmatched + 1, diagnostics := s.diagnostics + report)
  }

  function Run(digest: Json -> Json, byName: map<Json, seq<Json>>, init: State, src: seq<Json>): State {
    if |src| == 0 then init
    else Step(digest, byName, Run(digest, byName, init, src[..|src| - 1]), src[|src| - 1])
  }

  /** The whole command on two decoded exports, with items compared by `digest`. */
  function MatchBy(digest: Json -> Json, srcData: Json, dstData: Json): (r: Result)
    ensures r.Matched? <==> ItemsOf(srcData).Some? && ItemsOf(dstData).Some?
  {
    match (ItemsOf(srcData), ItemsOf(dstData))
    case (Some(src), Some(dst)) =>
      var ix := BuildIndex(digest, dst);
      var s := Run(digest, ix.byName, State(ix.buckets, [], 0, []), src);
      Matched(Outcome(s.pairs, s.unmatched, s.diagnostics))
    case _ => NotAList
  }

  /** The whole command as bw.py runs it (with `AsWritten`). */
  function Match(policy: Policy, srcData: Json, dstData: Json): (r: Result)
    ensures r.Matched? <==> ItemsOf(srcData).Some? && ItemsOf(dstData).Some?
  {
    MatchBy(Hasher(policy), srcData, dstData)
  }
}

=== FILE: normal.dfy ===
/** The value `json.dumps(j, sort_keys=True)` writes out (bw.py:126-127):
    every object, however deeply nested, with its keys in sorted order, and
    every list in its own order.

    Two values with the same normal form serialise to the same text, so
    this is the notion of "the same JSON" the digest and the corrected
    tie-break work with. */
module JsonNormal {
  import opened JsonValue
  import opened JsonOrder
  import opened StableSort

  function MemberKey(m: Member): Json {
    Str(m.key)
  }

  function Normalize(j: Json): Json {
    match j
    case Arr(xs) => Arr(NormalizeItems(xs))
    case Obj(ms) => Obj(SortBy(MemberKey, NormalizeMembers(ms)))
    case _ => j
  }

  function NormalizeItems(xs: seq<Json>): seq<Json> {
    if |xs| == 0 then [] else [Normalize(xs[0])] + NormalizeItems(xs[1..])
  }

  function NormalizeMembers(ms: seq<Member>): seq<Member> {
    if |ms| == 0 then [] else [Member(ms[0].key, Normalize(ms[0].value))] + NormalizeMembers(ms[1..])
  }

  /** `Normalize` lifted to the result of a lookup. */
  function NormalizeOpt(o: Option<Json>): Option<Json> {
    match o
    case Some(v) => Some(Normalize(v))
    case None => None
  }

  // ---------------------------------------------------------------------------
  // Shape

  lemma {:induction false} NormalizeItemsAt(xs: seq<Json>)
    ensures |NormalizeItems(xs)| == |xs|
    ensures forall i :: 0 <= i < |xs| ==> NormalizeItems(xs)[i] == Normalize(xs[i])
  {
    if |xs| > 0 {
      NormalizeItemsAt(xs[1..]);
    }
  }

  lemma {:induction false} NormalizeMembersKeys(ms: seq<Member>)
    ensures |NormalizeMembers(ms)| == |ms|
    ensures forall i :: 0 <= i < |ms| ==> NormalizeMembers(ms)[i].key == ms[i].key
  {
    if |ms| > 0 {
      NormalizeMembersKeys(ms[1..]);
    }
  }

  /** Normalising keeps the kind of a value and the length of a list or dict. */
  lemma NormalizeShape(j: Json)
    ensures Normalize(j).Arr? <==> j.Arr?
    ensures Normalize(j).Obj? <==> j.Obj?
    ensures j.Arr? ==> Normalize(j).items == NormalizeItems(j.items) && |Normalize(j).items| == |j.items|
    ensures j.Obj? ==> |Normalize(j).members| == |j.members|
    ensures !j.Arr? && !j.Obj? ==> Normalize(j) == j
  {
    match j
    case Arr(xs) => NormalizeItemsAt(xs);
    case Obj(ms) =>
      NormalizeMembersKeys(ms);
      SortPermutation(MemberKey, NormalizeMembers(ms));
    case _ =>
  }

  // ---------------------------------------------------------------------------
  // Normalising twice

  lemma {:induction false} InsertNormalizeMembers(x: Member, ys: seq<Member>)
    ensures NormalizeMembers(Insert(MemberKey, x, ys)) ==
      Insert(MemberKey, Member(x.key, Normalize(x.value)), NormalizeMembers(ys))
  {
    var x' := Member(x.key, Normalize(x.value));
    NormalizeMembersKeys(ys);
    if |ys| == 0 || Cmp(MemberKey(x), MemberKey(ys[0])) <= 0 {
      assert NormalizeMembers([x] + ys) == [x'] + NormalizeMembers(ys) by {
        assert ([x] + ys)[1..] == ys;
      }
    } else {
      InsertNormalizeMembers(x, ys[1..]);
      var r := [ys[0]] + Insert(MemberKey, x, ys[1..]);
      assert r[0] == ys[0] && r[1..] == Insert(MemberKey, x, ys[1..]);
    }
  }

  /** Normalising member values does not change where the sort puts them. */
  lemma {:induction false} SortNormalizeMembers(ms: seq<Member>)
    ensures NormalizeMembers(SortBy(MemberKey, ms)) == SortBy(MemberKey, NormalizeMembers(ms))
  {
    if |ms| > 0 {
      SortNormalizeMembers(ms[1..]);
      InsertNormalizeMembers(ms[0], SortBy(MemberKey, ms[1..]));
    }
  }

  /** Normalising is idempotent. */
  lemma {:induction false} NormalizeTwice(j: Json)
    ensures Normalize(Normalize(j)) == Normalize(j)
    decreases j, 1
  {
    match j
    case Arr(xs) => NormalizeItemsTwice(xs);
    case Obj(ms) =>
      NormalizeMembersTwice(ms);
      SortNormalizeMembers(NormalizeMembers(ms));
      SortIdempotent(MemberKey, NormalizeMembers(ms));
    case _ =>
  }

  lemma {:induction false} NormalizeItemsTwice(xs: seq<Json>)
    ensures NormalizeItems(NormalizeItems(xs)) == NormalizeItems(xs)
    decreases xs, 0
  {
    if |xs| > 0 {
      NormalizeTwice(xs[0]);
      NormalizeItemsTwice(xs[1..]);
      var n := NormalizeItems(xs);
      assert n[0] == Normalize(xs[0]) && n[1..] == NormalizeItems(xs[1..]);
    }
  }

  lemma {:induction false} NormalizeMembersTwice(ms: seq<Member>)
    ensures NormalizeMembers(NormalizeMembers(ms)) == NormalizeMembers(ms)
    decreases ms, 0
  {
    if |ms| > 0 {
      NormalizeTwice(ms[0].value);
      NormalizeMembersTwice(ms[1..]);
      var n := NormalizeMembers(ms);
      assert n[0] == Member(ms[0].key, Normalize(ms[0].value)) && n[1..] == NormalizeMembers(ms[1..]);
    }
  }

  // ---------------------------------------------------------------------------
  // Lookups through a normal form

  lemma {:induction false} GetNormalizeMembers(ms: seq<Member>, k: string)
    ensures Get(NormalizeMembers(ms), k) == NormalizeOpt(Get(ms, k))
  {
    if |ms| > 0 {
      GetNormalizeMembers(ms[1..], k);
      var n := NormalizeMembers(ms);
      assert n[0].key == ms[0].key && n[1..] == NormalizeMembers(ms[1..]);
    }
  }

  /** `d.get(k)` reads the first entry with key `k`. */
  lemma {:induction false} GetFirstWithKey(ms: seq<Member>, k: string)
    ensures var w := WithKey(MemberKey, ms, Str(k));
      Get(ms, k) == if |w| > 0 then Some(w[0].value) else None
  {
    if |ms| > 0 {
      GetFirstWithKey(ms[1..], k);
    }
  }

  /** Sorting members by key does not change what a lookup finds, even with
      duplicate keys, because the sort is stable. */
  lemma GetSortMembers(ms: seq<Member>, k: string)
    ensures Get(SortBy(MemberKey, ms), k) == Get(ms, k)
  {
    GetFirstWithKey(ms, k);
    GetFirstWithKey(SortBy(MemberKey, ms), k);
    SortStable(MemberKey, ms, Str(k));
  }

  /** `x.get(k)` commutes with normalising. */
  lemma FieldNormalize(x: Json, k: string)
    ensures Field(Normalize(x), k) == Normalize(Field(x, k))
  {
    if x.Obj? {
      GetSortMembers(NormalizeMembers(x.members), k);
      GetNormalizeMembers(x.members, k);
    }
  }

  // ---------------------------------------------------------------------------
  // Dict updates through a normal form

  lemma {:induction false} PutNormalizeMembers(ms: seq<Member>, k: string, v: Json)
    ensures NormalizeMembers(Put(ms, k, v)) == Put(NormalizeMembers(ms), k, Normalize(v))
  {
    NormalizeMembersKeys(ms);
    if |ms| > 0 {
      var n := NormalizeMembers(ms);
      assert n[0].key == ms[0].key && n[1..] == NormalizeMembers(ms[1..]);
      if ms[0].key == k {
        var p := [Member(k, v)] + ms[1..];
        assert p[0] == Member(k, v) && p[1..] == ms[1..];
      } else {
        PutNormalizeMembers(ms[1..], k, v);
        var p := [ms[0]] + Put(ms[1..], k, v);
        assert p[0] == ms[0] && p[1..] == Put(ms[1..], k, v);
      }
    }
  }

  lemma {:induction false} WithoutNormalizeMembers(ms: seq<Member>, ks: set<string>)
    ensures NormalizeMembers(Without(ms, ks)) == Without(NormalizeMembers(ms), ks)
  {
    NormalizeMembersKeys(ms);
    if |ms| > 0 {
      WithoutNormalizeMembers(ms[1..], ks);
      var n := NormalizeMembers(ms);
      assert n[0].key == ms[0].key && n[1..] == NormalizeMembers(ms[1..]);
      if ms[0].key !in ks {
        var w := [ms[0]] + Without(ms[1..], ks);
        assert w[0] == ms[0] && w[1..] == Without(ms[1..], ks);
      }
    }
  }

  // ---------------------------------------------------------------------------
  // Keys stay distinct

  lemma {:induction false} InsertDistinct(x: Member, ys: seq<Member>)
    requires DistinctKeys(ys) && x.key !in KeySet(ys)
    ensures DistinctKeys(Insert(MemberKey, x, ys))
    ensures KeySet(Insert(MemberKey, x, ys)) == KeySet(ys) + {x.key}
  {
    var r := Insert(MemberKey, x, ys);
    if |ys| == 0 || Cmp(MemberKey(x), MemberKey(ys[0])) <= 0 {
      assert r == [x] + ys;
      forall j | 0 < j < |r|
        ensures r[0].key != r[j].key
      {
        assert r[j] == ys[j - 1];
      }
    } else {
      DistinctTail(ys);
      InsertDistinct(x, ys[1..]);
      var rest := Insert(MemberKey, x, ys[1..]);
      assert r == [ys[0]] + rest;
      assert ys == [ys[0]] + ys[1..];
      assert x.key != ys[0].key;
      forall j | 0 < j < |r|
        ensures r[0].key != r[j].key
      {
        assert r[j] == rest[j - 1] && rest[j - 1] in rest;
      }
    }
  }

  /** A dict comes out of the key sort with its keys still distinct. */
  lemma {:induction false} SortDistinct(ms: seq<Member>)
    requires DistinctKeys(ms)
    ensures DistinctKeys(SortBy(MemberKey, ms))
    ensures KeySet(SortBy(MemberKey, ms)) == KeySet(ms)
  {
    if |ms| > 0 {
      DistinctTail(ms);
      SortDistinct(ms[1..]);
      InsertDistinct(ms[0], SortBy(MemberKey, ms[1..]));
      assert ms == [ms[0]] + ms[1..];
    }
  }
}

=== FILE: order.dfy ===
/** A total order on JSON values, used to compare sort keys.

    Python compares the canonicaliser's sort keys (strings, integers and
    tuples of them) with `<`: strings by code point, integers numerically,
    tuples lexicographically. A tuple key is represented here as a JSON
    array, so one comparison `Cmp` covers every key. On values Python would
    refuse to compare (a string against an integer) `Cmp` orders by the kind
    of value instead. */
module JsonOrder {
  import opened JsonValue

  function CmpInt(a: int, b: int): (r: int)
    ensures -1 <= r <= 1
    ensures r == 0 <==> a == b
    ensures r < 0 <==> a < b
  {
    if a < b then -1 else if a == b then 0 else 1
  }

  /** Lexicographic comparison of strings by code point, as Python's `str.__lt__`. */
  function CmpChars(a: string, b: string): (r: int)
    ensures -1 <= r <= 1
  {
    if |a| == 0 then (if |b| == 0 then 0 else -1)
    else if |b| == 0 then 1
    else if a[0] != b[0] then CmpInt(a[0] as int, b[0] as int)
    else CmpChars(a[1..], b[1..])
  }

  /** The rank of a value's kind, used only between values of different kinds. */
  function Kind(j: Json): int {
    match j
    case Null => 0
    case Bool(_) => 1
    case Int(_) => 2
    case Str(_) => 3
    case Arr(_) => 4
    case Obj(_) => 5
  }

  /** Negative, zero or positive as `a` sorts before, equal to, or after `b`. */
  function Cmp(a: Json, b: Json): (r: int)
    ensures -1 <= r <= 1
  {
    if Kind(a) != Kind(b) then CmpInt(Kind(a), Kind(b))
    else match a
      case Null => 0
      case Bool(x) => CmpInt(if x then 1 else 0, if b.b then 1 else 0)
      case Int(x) => CmpInt(x, b.i)
      case Str(x) => CmpChars(x, b.s)
      case Arr(xs) => CmpSeq(xs, b.items)
      case Obj(ms) => CmpMembers(ms, b.members)
  }

  /** Lexicographic comparison of arrays, as Python compares tuples. */
  function CmpSeq(xs: seq<Json>, ys: seq<Json>): (r: int)
    ensures -1 <= r <= 1
  {
    if |xs| == 0 then (if |ys| == 0 then 0 else -1)
    else if |ys| == 0 then 1
    else
      var c := Cmp(xs[0], ys[0]);
      if c != 0 then c else CmpSeq(xs[1..], ys[1..])
  }

  /** Objects compare member by member, key first. */
  function CmpMembers(ms: seq<Member>, ns: seq<Member>): (r: int)
    ensures -1 <= r <= 1
  {
    if |ms| == 0 then (if |ns| == 0 then 0 else -1)
    else if |ns| == 0 then 1
    else
      var c := CmpChars(ms[0].key, ns[0].key);
      if c != 0 then c
      else
        var d := Cmp(ms[0].value, ns[0].value);
        if d != 0 then d else CmpMembers(ms[1..], ns[1..])
  }

  // ---------------------------------------------------------------------------
  // Strings

  lemma {:induction false} CharsEqual(a: string, b: string)
    ensures CmpChars(a, b) == 0 <==> a == b
  {
    if |a| > 0 && |b| > 0 && a[0] == b[0] {
      CharsEqual(a[1..], b[1..]);
      assert a == [a[0]] + a[1..] && b == [b[0]] + b[1..];
    }
  }

  lemma {:induction false} CharsFlip(a: string, b: string)
    ensures CmpChars(b, a) == -CmpChars(a, b)
  {
    if |a| > 0 && |b| > 0 && a[0] == b[0] {
      CharsFlip(a[1..], b[1..]);
    }
  }

  lemma {:induction false} CharsTrans(a: string, b: string, c: string)
    requires CmpChars(a, b) <= 0 && CmpChars(b, c) <= 0
    ensures CmpChars(a, c) <= 0
    ensures CmpChars(a, b) < 0 || CmpChars(b, c) < 0 ==> CmpChars(a, c) < 0
  {
    if |a| > 0 && |b| > 0 && |c| > 0 && a[0] == b[0] == c[0] {
      CharsTrans(a[1..], b[1..], c[1..]);
    }
  }

  // ---------------------------------------------------------------------------
  // Values

  /** `Cmp` answers zero on equal values and on nothing else. */
  lemma {:induction false} CmpEqual(a: Json, b: Json)
    ensures Cmp(a, b) == 0 <==> a == b
  {
    if Kind(a) == Kind(b) {
      match a
      case Null =>
      case Bool(_) =>
      case Int(_) =>
      case Str(x) => CharsEqual(x, b.s);
      case Arr(xs) => SeqEqual(xs, b.items);
      case Obj(ms) => MembersEqual(ms, b.members);
    }
  }

  lemma {:induction false} SeqEqual(xs: seq<Json>, ys: seq<Json>)
    ensures CmpSeq(xs, ys) == 0 <==> xs == ys
  {
    if |xs| > 0 && |ys| > 0 {
      CmpEqual(xs[0], ys[0]);
      SeqEqual(xs[1..], ys[1..]);
      assert xs == [xs[0]] + xs[1..] && ys == [ys[0]] + ys[1..];
    }
  }

  lemma {:induction false} MembersEqual(ms: seq<Member>, ns: seq<Member>)
    ensures CmpMembers(ms, ns) == 0 <==> ms == ns
  {
    if |ms| > 0 && |ns| > 0 {
      CharsEqual(ms[0].key, ns[0].key);
      CmpEqual(ms[0].value, ns[0].value);
      MembersEqual(ms[1..], ns[1..]);
      assert ms == [ms[0]] + ms[1..] && ns == [ns[0]] + ns[1..];
    }
  }

  /** Swapping the arguments negates the answer. */
  lemma {:induction false} CmpFlip(a: Json, b: Json)
    ensures Cmp(b, a) == -Cmp(a, b)
  {
    if Kind(a) == Kind(b) {
      match a
      case Null =>
      case Bool(_) =>
      case Int(_) =>
      case Str(x) => CharsFlip(x, b.s);
      case Arr(xs) => SeqFlip(xs, b.items);
      case Obj(ms) => MembersFlip(ms, b.members);
    }
  }

  lemma {:induction false} SeqFlip(xs: seq<Json>, ys: seq<Json>)
    ensures CmpSeq(ys, xs) == -CmpSeq(xs, ys)
  {
    if |xs| > 0 && |ys| > 0 {
      CmpFlip(xs[0], ys[0]);
      SeqFlip(xs[1..], ys[1..]);
    }
  }

  lemma {:induction false} MembersFlip(ms: seq<Member>, ns: seq<Member>)
    ensures CmpMembers(ns, ms) == -CmpMembers(ms, ns)
  {
    if |ms| > 0 && |ns| > 0 {
      CharsFlip(ms[0].key, ns[0].key);
      CmpFlip(ms[0].value, ns[0].value);
      MembersFlip(ms[1..], ns[1..]);
    }
  }

  /** `Cmp` is transitive, strictly so when either step is strict. */
  lemma {:induction false} CmpTrans(a: Json, b: Json, c: Json)
    requires Cmp(a, b) <= 0 && Cmp(b, c) <= 0
    ensures Cmp(a, c) <= 0
    ensures Cmp(a, b) < 0 || Cmp(b, c) < 0 ==> Cmp(a, c) < 0
  {
    if Kind(a) == Kind(b) == Kind(c) {
      match a
      case Null =>
      case Bool(_) =>
      case Int(_) =>
      case Str(x) => CharsTrans(x, b.s, c.s);
      case Arr(xs) => SeqTrans(xs, b.items, c.items);
      case Obj(ms) => MembersTrans(ms, b.members, c.members);
    }
  }

  lemma {:induction false} SeqTrans(xs: seq<Json>, ys: seq<Json>, zs: seq<Json>)
    requires CmpSeq(xs, ys) <= 0 && CmpSeq(ys, zs) <= 0
    ensures CmpSeq(xs, zs) <= 0
    ensures CmpSeq(xs, ys) < 0 || CmpSeq(ys, zs) < 0 ==> CmpSeq(xs, zs) < 0
  {
    if |xs| > 0 && |ys| > 0 && |zs| > 0 {
      CmpEqual(xs[0], ys[0]);
      CmpEqual(ys[0], zs[0]);
      if Cmp(xs[0], ys[0]) == 0 && Cmp(ys[0], zs[0]) == 0 {
        SeqTrans(xs[1..], ys[1..], zs[1..]);
      } else if Cmp(xs[0], ys[0]) != 0 && Cmp(ys[0], zs[0]) != 0 {
        CmpTrans(xs[0], ys[0], zs[0]);
      }
    }
  }

  lemma {:induction false} MembersTrans(ms: seq<Member>, ns: seq<Member>, ps: seq<Member>)
    requires CmpMembers(ms, ns) <= 0 && CmpMembers(ns, ps) <= 0
    ensures CmpMembers(ms, ps) <= 0
    ensures CmpMembers(ms, ns) < 0 || CmpMembers(ns, ps) < 0 ==> CmpMembers(ms, ps) < 0
  {
    if |ms| > 0 && |ns| > 0 && |ps| > 0 {
      var a, b, c := ms[0], ns[0], ps[0];
      CharsEqual(a.key, b.key);
      CharsEqual(b.key, c.key);
      CmpEqual(a.value, b.value);
      CmpEqual(b.value, c.value);
      if CmpChars(a.key, b.key) != 0 || CmpChars(b.key, c.key) != 0 {
        if CmpChars(a.key, b.key) != 0 && CmpChars(b.key, c.key) != 0 {
          CharsTrans(a.key, b.key, c.key);
        }
      } else if Cmp(a.value, b.value) == 0 && Cmp(b.value, c.value) == 0 {
        MembersTrans(ms[1..], ns[1..], ps[1..]);
      } else if Cmp(a.value, b.value) != 0 && Cmp(b.value, c.value) != 0 {
        CmpTrans(a.value, b.value, c.value);
      }
    }
  }

  /** Two values that each sort no later than the other are equal. */
  lemma CmpAntisymmetric(a: Json, b: Json)
    requires Cmp(a, b) <= 0 && Cmp(b, a) <= 0
    ensures a == b
  {
    CmpFlip(a, b);
    CmpEqual(a, b);
  }
}

=== FILE: sort.dfy ===
/** Python's `sorted(xs, key=key)`: a stable sort by a key function.

    The sort is an insertion sort; what the rest of the model relies on is
    stated by the lemmas below and holds of any stable sort: the result is
    ordered by key, it is a permutation of the input, entries with equal keys
    keep their input order, and a sorted input comes back unchanged. */
module StableSort {
  import opened JsonValue
  import opened JsonOrder

  /** Every entry sorts no later than every entry after it. */
  predicate Sorted<T>(key: T -> Json, xs: seq<T>) {
    forall i, j :: 0 <= i < j < |xs| ==> Cmp(key(xs[i]), key(xs[j])) <= 0
  }

  /** Places `x` before the first entry whose key is not smaller than its own. */
  function Insert<T>(key: T -> Json, x: T, ys: seq<T>): seq<T> {
    if |ys| == 0 || Cmp(key(x), key(ys[0])) <= 0 then [x] + ys
    else [ys[0]] + Insert(key, x, ys[1..])
  }

  function SortBy<T>(key: T -> Json, xs: seq<T>): seq<T> {
    if |xs| == 0 then [] else Insert(key, xs[0], SortBy(key, xs[1..]))
  }

  /** The entries of `xs` whose key is `c`, in their order in `xs`. */
  function WithKey<T>(key: T -> Json, xs: seq<T>, c: Json): seq<T> {
    if |xs| == 0 then []
    else (if key(xs[0]) == c then [xs[0]] else []) + WithKey(key, xs[1..], c)
  }

  // ---------------------------------------------------------------------------

  lemma {:induction false} InsertPermutation<T>(key: T -> Json, x: T, ys: seq<T>)
    ensures multiset(Insert(key, x, ys)) == multiset(ys) + multiset{x}
    ensures |Insert(key, x, ys)| == |ys| + 1
  {
    if |ys| > 0 && Cmp(key(x), key(ys[0])) > 0 {
      InsertPermutation(key, x, ys[1..]);
      assert ys == [ys[0]] + ys[1..];
    }
  }

  lemma {:induction false} InsertSorted<T>(key: T -> Json, x: T, ys: seq<T>)
    requires Sorted(key, ys)
    ensures Sorted(key, Insert(key, x, ys))
  {
    var r := Insert(key, x, ys);
    if |ys| == 0 {
    } else if Cmp(key(x), key(ys[0])) <= 0 {
      forall i, j | 0 <= i < j < |r|
        ensures Cmp(key(r[i]), key(r[j])) <= 0
      {
        if i == 0 && j > 1 {
          CmpTrans(key(x), key(ys[0]), key(ys[j - 1]));
        }
      }
    } else {
      var rest := Insert(key, x, ys[1..]);
      InsertSorted(key, x, ys[1..]);
      InsertPermutation(key, x, ys[1..]);
      CmpFlip(key(x), key(ys[0]));
      forall j | 0 <= j < |rest|
        ensures Cmp(key(ys[0]), key(rest[j])) <= 0
      {
        assert rest[j] in multiset(ys[1..]) + multiset{x};
        if rest[j] != x {
          assert rest[j] in ys[1..];
          var k :| 0 <= k < |ys[1..]| && ys[1..][k] == rest[j];
          assert ys[k + 1] == rest[j];
        }
      }
      assert r == [ys[0]] + rest;
    }
  }

  /** The sorted copy is ordered by key. */
  lemma {:induction false} SortSorted<T>(key: T -> Json, xs: seq<T>)
    ensures Sorted(key, SortBy(key, xs))
  {
    if |xs| > 0 {
      SortSorted(key, xs[1..]);
      InsertSorted(key, xs[0], SortBy(key, xs[1..]));
    }
  }

  /** The sorted copy holds the same entries, each as often. */
  lemma {:induction false} SortPermutation<T>(key: T -> Json, xs: seq<T>)
    ensures multiset(SortBy(key, xs)) == multiset(xs)
    ensures |SortBy(key, xs)| == |xs|
  {
    if |xs| > 0 {
      SortPermutation(key, xs[1..]);
      InsertPermutation(key, xs[0], SortBy(key, xs[1..]));
      assert xs == [xs[0]] + xs[1..];
    }
  }

  lemma {:induction false} InsertStable<T>(key: T -> Json, x: T, ys: seq<T>, c: Json)
    ensures WithKey(key, Insert(key, x, ys), c) == (if key(x) == c then [x] else []) + WithKey(key, ys, c)
  {
    if |ys| > 0 && Cmp(key(x), key(ys[0])) > 0 {
      InsertStable(key, x, ys[1..], c);
      CmpEqual(key(x), key(ys[0]));
      assert Insert(key, x, ys) == [ys[0]] + Insert(key, x, ys[1..]);
    } else {
      assert Insert(key, x, ys) == [x] + ys;
      assert ([x] + ys)[1..] == ys;
    }
  }

  /** Stability: entries sharing a key keep their input order. */
  lemma {:induction false} SortStable<T>(key: T -> Json, xs: seq<T>, c: Json)
    ensures WithKey(key, SortBy(key, xs), c) == WithKey(key, xs, c)
  {
    if |xs| > 0 {
      SortStable(key, xs[1..], c);
      InsertStable(key, xs[0], SortBy(key, xs[1..]), c);
    }
  }

  /** Sorting an already sorted sequence returns it unchanged. */
  lemma {:induction false} SortOfSorted<T>(key: T -> Json, xs: seq<T>)
    requires Sorted(key, xs)
    ensures SortBy(key, xs) == xs
  {
    if |xs| > 0 {
      assert Sorted(key, xs[1..]);
      SortOfSorted(key, xs[1..]);
      assert xs == [xs[0]] + xs[1..];
    }
  }

  /** Sorting twice is sorting once. */
  lemma SortIdempotent<T>(key: T -> Json, xs: seq<T>)
    ensures SortBy(key, SortBy(key, xs)) == SortBy(key, xs)
  {
    SortSorted(key, xs);
    SortOfSorted(key, SortBy(key, xs));
  }

  lemma SortedHeads<T>(key: T -> Json, a: seq<T>, b: seq<T>)
    requires Sorted(key, a) && Sorted(key, b) && multiset(a) == multiset(b) && |a| > 0
    requires forall i, j :: 0 <= i < |a| && 0 <= j < |a| && key(a[i]) == key(a[j]) ==> a[i] == a[j]
    ensures |b| > 0 && a[0] == b[0]
  {
    assert a[0] in multiset(b);
    assert b[0] in multiset(a);
    var k :| 0 <= k < |a| && a[k] == b[0];
    assert Cmp(key(b[0]), key(a[0])) <= 0 by {
      var j :| 0 <= j < |b| && b[j] == a[0];
      if j == 0 {
        CmpEqual(key(b[0]), key(b[j]));
      }
    }
    assert Cmp(key(a[0]), key(b[0])) <= 0 by {
      if k == 0 {
        CmpEqual(key(a[0]), key(a[k]));
      }
    }
    CmpAntisymmetric(key(a[0]), key(b[0]));
  }

  lemma MultisetTails<T>(a: seq<T>, b: seq<T>)
    requires |a| > 0 && |b| > 0 && a[0] == b[0] && multiset(a) == multiset(b)
    ensures multiset(a[1..]) == multiset(b[1..])
  {
    assert a == [a[0]] + a[1..] && b == [b[0]] + b[1..];
    assert multiset(a[1..]) == multiset(a) - multiset{a[0]};
    assert multiset(b[1..]) == multiset(b) - multiset{b[0]};
  }

  /** Two sorted permutations of one another are equal, provided no two
      different entries share a key. */
  lemma {:induction false} SortedUnique<T>(key: T -> Json, a: seq<T>, b: seq<T>)
    requires Sorted(key, a) && Sorted(key, b) && multiset(a) == multiset(b)
    requires forall i, j :: 0 <= i < |a| && 0 <= j < |a| && key(a[i]) == key(a[j]) ==> a[i] == a[j]
    ensures a == b
  {
    if |a| == 0 {
      assert |multiset(b)| == 0;
    } else {
      SortedHeads(key, a, b);
      MultisetTails(a, b);
      forall i, j | 0 <= i < |a[1..]| && 0 <= j < |a[1..]| && key(a[1..][i]) == key(a[1..][j])
        ensures a[1..][i] == a[1..][j]
      {
        assert a[1..][i] == a[i + 1] && a[1..][j] == a[j + 1];
      }
      SortedUnique(key, a[1..], b[1..]);
      assert a == [a[0]] + a[1..] && b == [b[0]] + b[1..];
    }
  }

  /** Sorting does not see the input order, provided no two different
      entries share a key. */
  lemma SortPermutationInvariant<T>(key: T -> Json, xs: seq<T>, ys: seq<T>)
    requires multiset(xs) == multiset(ys)
    requires forall i, j :: 0 <= i < |xs| && 0 <= j < |xs| && key(xs[i]) == key(xs[j]) ==> xs[i] == xs[j]
    ensures SortBy(key, xs) == SortBy(key, ys)
  {
    var a, b := SortBy(key, xs), SortBy(key, ys);
    SortSorted(key, xs);
    SortSorted(key, ys);
    SortPermutation(key, xs);
    SortPermutation(key, ys);
    forall i, j | 0 <= i < |a| && 0 <= j < |a| && key(a[i]) == key(a[j])
      ensures a[i] == a[j]
    {
      assert a[i] in multiset(xs) && a[j] in multiset(xs);
      var p :| 0 <= p < |xs| && xs[p] == a[i];
      var q :| 0 <= q < |xs| && xs[q] == a[j];
    }
    SortedUnique(key, a, b);
  }
}
